=== FILE: README.md ===
# ecs-drain-lambda in Dafny

A Dafny model of the decision logic of `ecs-drain-lambda`. This is an AWS Lambda
function that drains an ECS container instance before its EC2 instance goes away.
It reacts to an Auto Scaling "EC2 Instance-terminate Lifecycle Action" event or to
an "EC2 Spot Instance Interruption Warning" event. It then:

- finds the ECS cluster named in the instance's user data (`ECS_CLUSTER=...`);
- marks the container instance DRAINING;
- polls the instance's tasks until none is left running;
- completes the lifecycle hook with `CONTINUE`, for Auto Scaling events.

The AWS calls are parameters of the model.

- **EC2.** `ClusterResolver.Ec2Api` gives scripted replies to DescribeInstances and
  to the `userData` attribute, plus an opaque base64 decoder that may fail.
- **ECS.** `Ecs.EcsApi` holds one reply function per ECS call. Each function is
  given the whole sequence of requests issued so far, so one `EcsApi` value stands
  for any deterministic control plane, including one whose task states change
  between polls. The model functions return the request trace they issued next to
  their result. The contracts are stated over that trace: which calls happened, in
  which order, with which arguments, and why the run stopped.
- **Handler.** `Handler.Services` supplies JSON decoding, cluster resolution,
  `Drain` and CompleteLifecycleAction. `Scenarios.Wire` connects them to the models
  above.

Modules:

| file | module | models |
|---|---|---|
| wrappers.dfy | Wrappers | `Option` and `Result` |
| errors.dfy | Errors | the error values of the package and the outcome of a drain |
| user_data.dfy | UserData | the `ECS_CLUSTER=([0-9A-Za-z_\-]*)` extraction |
| user_data_examples.dfy | UserDataExamples | the rows of the extraction's test table |
| cluster_resolver.dfy | ClusterResolver | `GetClusterNameFromInstanceUserData` |
| ecs_api.dfy | Ecs | ECS types, the ECS API, `getContainerInstance` |
| drain.dfy | DrainEngine | the `Drain` polling loop and its soundness proof |
| drain_properties.dfy | DrainProperties | further properties of `Drain` |
| handler.dfy | Handler | `HandleRequest` and `CompleteLifecycle` |
| handler_properties.dfy | HandlerProperties | ordering and "no call happened" properties of the handler |
| scenarios.dfy | Scenarios | end-to-end runs of concrete events against scripted APIs |

The `Drain` loop waits on the control plane and need not terminate. It therefore
runs on `fuel`, one unit per poll, and ends `Unfinished` when the fuel is spent.
The proved properties are partial-correctness and trace properties that hold for
every fuel value. `DrainProperties.DrainFuelMonotone` shows that the bound only cuts
runs short: it never changes a run that finishes.

Notes on what the code does, which the model follows:

- **Cluster-name characters.** The name is the longest run of `[0-9A-Za-z_-]`
  after the key, not the longest run of non-whitespace characters. A quote or a
  `.` ends the name.
- **The key is not anchored.** The literal `ECS_CLUSTER=` also matches inside a
  longer key such as `X_ECS_CLUSTER=`. An empty name is a success, not an error.
- **Resolution errors.** The handler's `switch err` has no default case. Only
  `ErrInstanceTerminated` skips the drain. Missing user data, a missing
  `ECS_CLUSTER=`, an EC2 API error and a base64 error all go on to `Drain` with the
  empty cluster name. The handler does not skip the drain for them, and it does not
  abort.
- **Instance already DRAINING.** If the instance is already DRAINING when it is
  first fetched, `Drain` returns nil at the first poll. This holds even with
  running tasks, because no task list was ever fetched and the drain set is empty
  (`DrainProperties.AlreadyDrainingReturnsAtOnce`).

## Model

| member | source | states |
|---|---|---|
| UserData.FindKey | ecs.go:20 | the index returned is an occurrence of `ECS_CLUSTER=` at or after the start position with no earlier one, and "none" means no occurrence at all from there on |
| UserData.NameRun | ecs.go:20 | the result is the longest prefix of the text after the key made only of `[0-9A-Za-z_-]`, which is what the greedy `*` group captures |
| UserData.ParseECSClusterValue | ecs.go:177-185 | fails exactly when the text holds no `ECS_CLUSTER=`, and then with `ErrMissingECSClusterInUserData`; otherwise the value is the name run after the leftmost key |
| UserData.NameRunUnique | ecs.go:20 | the captured name is determined by the text: two longest name runs of one text are equal |
| UserData.ParseCharacterization | ecs.go:178-185 | given the leftmost key, extraction yields `name` if and only if `name` is the longest name run right after that key |
| UserData.ParseInContext | ecs.go:177-185 | for any key-free prefix, name and non-name-continuing suffix (including later `ECS_CLUSTER=` lines), extraction returns exactly the name: surrounding text does not affect the result |
| UserData.NoKeyWithoutKeyChar | ecs.go:179-181 | a text missing any one character of the key has no match, so extraction reports the missing-cluster error |
| UserDataExamples.DoubleQuoted | ecs_test.go:14-17 | the double-quoted `echo` line yields `test-ecs-cluster123` |
| UserDataExamples.SingleQuoted | ecs_test.go:18-21 | the single-quoted `echo` line yields `test-ecs-cluster123` |
| UserDataExamples.Unquoted | ecs_test.go:22-25 | the bare `echo` line yields `test-ecs-cluster123` |
| UserDataExamples.AfterShebang | ecs_test.go:26-30 | the script with a shebang line yields `test-ecs-cluster123` |
| UserDataExamples.InYamlBlock | ecs_test.go:31-41 | the cloud-config block yields `my-super-ECS-cluster-22abc`, even though another `ECS_` setting follows it |
| UserDataExamples.YamlWithoutCluster | ecs_test.go:42-51 | the cloud-config block without the cluster line fails with the missing-cluster error and the empty value |
| UserDataExamples.EmptyText | ecs_test.go:52-55 | empty user data fails with the missing-cluster error and the empty value |
| UserDataExamples.AfterShellCommands | ecs_test.go:56-63 | the script with earlier `${...}` lines yields `my-super-ECS-cluster-22abc` |
| UserDataExamples.UnanchoredAndEmpty | ecs.go:20 | the key also matches inside `X_ECS_CLUSTER=`, and a key followed by a quote yields the empty name without an error |
| ClusterResolver.GetClusterNameFromInstanceUserData | ecs.go:142-186 | error precedence: an EC2 error, then terminated or shutting-down (first instance of the first reservation only), then an attribute error, then no user data, then a decoding error, then no key. Either EC2 call's error is returned as that API error unchanged, and a decoding failure as a decode error carrying the decoder's message. User data is fetched only for a live instance. When the user data decodes, the result is the extraction's result |
| Ecs.FirstMatch | ecs.go:134-139 | the index returned is the first instance whose EC2 id matches; "none" exactly when no instance matches |
| Ecs.GetContainerInstance | ecs.go:120-140 | issues ListContainerInstances and then, unless that failed, DescribeContainerInstances for exactly the ARNs the listing returned. An API error is returned unchanged, with that call as the last one. Otherwise returns the first matching instance, or the not-found error when none matches |
| DrainEngine.Unstopped | ecs.go:94-110 | the tally never exceeds the number of tasks, and is zero exactly when every task is STOPPED or has no status |
| DrainEngine.UnstoppedIsCardinality | ecs.go:97-110 | the tally is the number of tasks with a non-nil status other than STOPPED |
| DrainEngine.PollSound | ecs.go:43-114 | from loop variables that agree with the trace, the polls only extend the trace, and every request is one the loop may issue at that point (see `DrainEngine.Allowed`): an instance lookup only first or right after a ListTasks, its description only right after the listing, and DescribeTasks only with the last snapshot DRAINING or straight after the re-fetch, so a poll that finds the instance not DRAINING starts with the update, and the update is never re-sent within the poll that sent it. The run stops only for a justified reason. nil needs a found instance at the head of a poll, and either a gate at zero or an empty drain set. An error is the reply to the last call. Out of fuel means tasks are pending after exactly as many pauses as the fuel allows |
| DrainEngine.Drain | ecs.go:26-118 | the first call lists the cluster's instances. A DRAINING update happens only at the start of a poll, never straight after the re-fetch (the loop goes on to the tasks there), while tasks are pending and the last-fetched status is not DRAINING, and only for that instance. ListTasks comes only right after that update, and a re-fetch only right after a ListTasks. DescribeTasks asks only about the latest non-empty task list, at the head of a poll, while the gate is positive, and only when the last snapshot is DRAINING or the instance was just re-fetched. nil is returned only with the instance found, and only when the gate reads zero or the drain set is empty (the tasks were listed and none came back, or the instance was already DRAINING). Any API error is the reply to the last call, after error-free calls. `Unfinished` comes only with tasks pending after exactly `fuel` pauses |
| DrainProperties.NoRunningTasksNoDrainCalls | ecs.go:35-43 | with a nil or zero running-task count, `Drain` returns nil after issuing only the instance lookup calls |
| DrainProperties.AlreadyDrainingReturnsAtOnce | ecs.go:40-79 | an instance already DRAINING when first fetched has an empty drain set, so `Drain` returns nil right after the lookup, whatever its task count |
| DrainProperties.PollFuelMonotone | ecs.go:43-114 | a poll sequence that ends within its fuel gives the same run with any larger fuel |
| DrainProperties.DrainFuelMonotone | ecs.go:26-118 | a drain that ends within its fuel gives the same run with any larger fuel |
| DrainProperties.LastListedStable | ecs.go:65-67 | the drain set changes only at a ListTasks call |
| DrainProperties.DrainSetReused | ecs.go:82-85 | two DescribeTasks calls with no ListTasks between them ask about the same task ARNs |
| DrainProperties.PauseFollowsTally | ecs.go:82-113 | a DescribeTasks that succeeds is always followed by the 10-second pause, after which the gate reads that reply's tally and the drain set is unchanged |
| DrainProperties.ZeroTallyEndsDrain | ecs.go:43-114 | after a DescribeTasks whose tally is zero, the following pause is the last request and `Drain` returns nil |
| DrainProperties.PositiveTallyContinues | ecs.go:43-114 | after a DescribeTasks whose tally is positive the pause follows, and then either the run is out of fuel or the next poll begins, with the DRAINING update exactly when the last snapshot is not DRAINING and with another DescribeTasks otherwise |
| DrainProperties.TracePositiveTally | ecs.go:43-114 | the same continuation after a positive tally, for every trace of allowed requests whose exit is justified |
| DrainProperties.TraceUpdateStartsPoll | ecs.go:43-49 | at a poll head other than the re-fetch, a last snapshot that is not DRAINING makes the next request, if any, the DRAINING update for that instance |
| DrainProperties.UpdateStartsPoll | ecs.go:43-49 | the same for `Drain`'s own trace: the loop never skips the update while the instance is not DRAINING |
| DrainProperties.TraceDescribeAfterRefetch | ecs.go:70-82 | straight after the re-fetch that follows a ListTasks, the next request, if any, is a DescribeTasks: the update is not sent again within the same poll |
| DrainProperties.DescribeAfterRefetch | ecs.go:70-82 | the same for `Drain`'s own trace |
| Handler.Dispatch | handler.go:39-57 | Auto Scaling events target `EC2InstanceID` and then complete the lifecycle hook; spot events target `instance-id` and then do nothing; other detail types target "" and do nothing. Only a detail that fails to decode is an error, and it is the decoder's error |
| Handler.CompleteLifecycleFor | handler.go:109-117 | one CompleteLifecycleAction call with the event's instance id, hook name, token and group name and result `CONTINUE`; nil exactly when the call succeeds, otherwise its error unchanged |
| Handler.HandleRequest | handler.go:35-94 | at most three steps. Resolution always comes first. A drain can only be the second step. Completing the lifecycle hook can only be the last step |
| HandlerProperties.MalformedDetailStopsEarly | handler.go:44-54 | a detail that fails to decode is returned at once with no resolution, drain or final action |
| HandlerProperties.TerminatedSkipsDrain | handler.go:71-76 | when resolution reports a terminated instance, the handler runs the final action straight after resolution, returns its result and never drains |
| HandlerProperties.OtherResolutionsDrain | handler.go:65-86 | every other resolution result leads to a drain, with the resolved name or, on any error, the empty name |
| HandlerProperties.DrainFailureBlocksFinalAction | handler.go:86-88 | a failed drain is returned unchanged and the final action is not run |
| HandlerProperties.SuccessfulDrainRunsFinalAction | handler.go:86-93 | after a successful drain the handler's result is the final action's result |
| HandlerProperties.CompletionOnlyAfterDrainOrTermination | handler.go:65-93 | the lifecycle hook is completed only as the last step. That happens either after a terminated-instance resolution or after a drain that returned nil. The event must be an Auto Scaling event, and the hook is completed with that event's fields |
| Scenarios.ZeroTasksDrainsNothing | ecs.go:35-43 | an instance with zero running tasks is drained with exactly the two lookup calls and returns nil |
| Scenarios.TwoPollsThenDone | ecs.go:43-114 | two running tasks that stop by the second poll give exactly one DRAINING update, one ListTasks, one re-fetch and two DescribeTasks with pauses, then nil |
| Scenarios.SpotForTerminatedInstance | handler.go:50-76 | a spot event for a terminated instance resolves once, does not drain, and returns nil |
| Scenarios.ConfigLineResolves | ecs.go:142-185 | a live instance whose user data is an `echo ECS_CLUSTER=prod` line resolves to `prod` |
| Scenarios.ThrottledDrainFails | ecs.go:120-124 | a failing instance listing ends the drain at its first call with that error |
| Scenarios.LifecycleDrainFails | handler.go:86-88 | an Auto Scaling event whose drain hits an API error returns it after resolving and draining, and never completes the hook |
| Scenarios.EmptyUserDataIsMissingCluster | ecs.go:172-182 | empty decoded user data resolves to the missing-cluster error |
| Scenarios.MissingClusterKeyStillDrains | handler.go:65-86 | an instance whose user data has no `ECS_CLUSTER=` is still drained, with the empty cluster name |

## Left out

- AWS SDK clients and sessions, and the lazy creation of the Auto Scaling client (ecs.go:18-19, handler.go:98-100). The API calls are parameters.
- ClusterResolver.GetClusterNameFromInstanceUserData: base64 decoding (ecs.go:172-175) is an opaque decoder that may fail, not the standard's alphabet. The request input is reduced to the instance id, and the `"userData"` attribute name is implied.
- Go's general `regexp` engine. Only the one fixed pattern is modelled, as a direct scan. Text is a sequence of characters rather than bytes; the name class is ASCII, so it matches the same runs.
- `time.Sleep(10 * time.Second)` is recorded as a `Sleep(10)` request in the trace and not interpreted.
- `printJSON`, `fmt` logging, and the `taskStates` histogram that is only printed (ecs.go:94-112, ecs.go:188-193).
- Nil responses and nil pointers the source dereferences without a check. These are a nil DescribeTasks reply (ecs.go:90-97), a nil `Ec2InstanceId`, `Status` or `State.Name`, and a JSON `null` event detail. Each would panic, and the model gives them no representation. A nil ListTasks reply (ecs.go:65-67) is not modelled either: the reply is always a possibly empty list.
- DrainEngine.Drain: termination is not proved, because it depends on the control plane. The loop runs on fuel and ends `Unfinished` when the fuel is spent. The `int64` running-task count is an unbounded `int`; the source only compares it with zero.
- Handler.HandleRequest: its own contract states only the shape of the step sequence. The full behaviour is stated by the lemmas of `HandlerProperties`.
- `cmd/drain/main.go`, the Lambda entry point, is not part of this model.

=== FILE: cluster_resolver.dfy ===
/** Resolution of an instance's ECS cluster from its EC2 description and user
    data (`GetClusterNameFromInstanceUserData`). The two EC2 calls and the
    base64 decoding are parameters: scripted replies keyed by instance id, and
    an opaque decoder that may fail. */
module ClusterResolver {
  import opened Wrappers
  import opened Errors
  import opened UserData

  /** EC2 instance-state names that count as already terminated. */
  const Terminated := "terminated"
  const ShuttingDown := "shutting-down"

  datatype Ec2Instance = Ec2Instance(stateName: string)
  datatype Reservation = Reservation(instances: seq<Ec2Instance>)

  datatype Ec2Api = Ec2Api(
    /** DescribeInstances for one instance id. */
    describeInstances: string -> Result<seq<Reservation>, ApiError>,
    /** DescribeInstanceAttribute "userData": `None` when the reply, its
        UserData or its Value is nil. */
    describeUserData: string -> Result<Option<string>, ApiError>,
    /** Standard base64 decoding; the error carries the decoder's message. */
    decodeBase64: string -> Result<string, string>)

  /** The EC2 calls the resolver issues, in order. */
  datatype Ec2Request = DescribeInstances(instance: string) | DescribeUserData(instance: string)

  datatype Resolution = Resolution(calls: seq<Ec2Request>, result: Result<string, Error>)

  /** Only the first instance of the first reservation is inspected. */
  predicate AlreadyTerminated(reservations: seq<Reservation>) {
    && |reservations| > 0
    && |reservations[0].instances| > 0
    && reservations[0].instances[0].stateName in {Terminated, ShuttingDown}
  }

  /** The user data as text, when the instance is live and has user data that
      decodes; this is what the cluster name is extracted from. */
  predicate DecodedUserData(ec2: Ec2Api, instance: string, text: string) {
    && ec2.describeInstances(instance).Success?
    && !AlreadyTerminated(ec2.describeInstances(instance).value)
    && ec2.describeUserData(instance).Success?
    && ec2.describeUserData(instance).value.Some?
    && ec2.decodeBase64(ec2.describeUserData(instance).value.value) == Success(text)
  }

  /** The error precedence of the source: an EC2 error, then termination, then
      an EC2 error for the attribute, then missing user data, then a decoding
      error, and only then a missing `ECS_CLUSTER=`. The user data is never
      fetched for an instance whose description failed or shows it
      terminated or shutting down. */
  function GetClusterNameFromInstanceUserData(ec2: Ec2Api, instance: string): (r: Resolution)
    ensures 1 <= |r.calls| <= 2 && r.calls[0] == DescribeInstances(instance)
    ensures |r.calls| == 2 <==> ec2.describeInstances(instance).Success? && !AlreadyTerminated(ec2.describeInstances(instance).value)
    ensures |r.calls| == 2 ==> r.calls[1] == DescribeUserData(instance)
    ensures r.result == Failure(InstanceTerminated) <==>
      ec2.describeInstances(instance).Success? && AlreadyTerminated(ec2.describeInstances(instance).value)
    ensures r.result == Failure(MissingUserData) <==> |r.calls| == 2 && ec2.describeUserData(instance) == Success(None)
    ensures r.result == Failure(MissingECSClusterInUserData) <==>
      exists text :: DecodedUserData(ec2, instance, text) && !HasClusterKey(text)
    ensures r.result.Success? <==> exists text :: DecodedUserData(ec2, instance, text) && HasClusterKey(text)
    ensures forall text :: DecodedUserData(ec2, instance, text) ==> r.result == ParseECSClusterValue(text)
    ensures ec2.describeInstances(instance).Failure? ==> r.result == Failure(Api(ec2.describeInstances(instance).error))
    ensures |r.calls| == 2 && ec2.describeUserData(instance).Failure? ==> r.result == Failure(Api(ec2.describeUserData(instance).error))
    ensures (&& |r.calls| == 2 && ec2.describeUserData(instance).Success? && ec2.describeUserData(instance).value.Some?
             && ec2.decodeBase64(ec2.describeUserData(instance).value.value).Failure?) ==>
      r.result == Failure(Decode(ec2.decodeBase64(ec2.describeUserData(instance).value.value).error))
    ensures r.result.Failure? ==> r.result.error.Api? || r.result.error.Decode? || r.result.error in {InstanceTerminated, MissingUserData, MissingECSClusterInUserData}
  {
    match ec2.describeInstances(instance)
    case Failure(e) => Resolution([DescribeInstances(instance)], Failure(Api(e)))
    case Success(reservations) =>
      if AlreadyTerminated(reservations) then Resolution([DescribeInstances(instance)], Failure(InstanceTerminated))
      else
        var calls := [DescribeInstances(instance), DescribeUserData(instance)];
        match ec2.describeUserData(instance)
        case Failure(e) => Resolution(calls, Failure(Api(e)))
        case Success(None) => Resolution(calls, Failure(MissingUserData))
        case Success(Some(encoded)) =>
          match ec2.decodeBase64(encoded)
          case Failure(msg) => Resolution(calls, Failure(Decode(msg)))
          case Success(text) =>
            assert DecodedUserData(ec2, instance, text);
            Resolution(calls, ParseECSClusterValue(text))
  }
}

=== FILE: drain.dfy ===
/** The `Drain` polling loop: mark the container instance DRAINING, capture the
    tasks it runs, and poll their states until none is left running.

    The loop need not terminate (it waits on the control plane), so it runs on
    `fuel`, one unit per poll, and ends `Unfinished` when the fuel is spent;
    the properties proved are partial-correctness and call-trace properties
    that hold whatever the fuel. */
module DrainEngine {
  import opened Wrappers
  import opened Errors
  import opened Ecs

  /** A task counted as still to shut down: it has a last status and that
      status is not STOPPED. Tasks without a status are skipped. */
  predicate NotStopped(t: Task) {
    t.lastStatus.Some? && t.lastStatus.value != Stopped
  }

  /** The re-tallied number of tasks still to shut down. */
  function Unstopped(tasks: seq<Task>): (n: nat)
    ensures n <= |tasks|
    ensures n == 0 <==> forall k | 0 <= k < |tasks| :: !NotStopped(tasks[k])
    decreases |tasks|
  {
    if |tasks| == 0 then 0
    else Unstopped(tasks[..|tasks| - 1]) + (if NotStopped(tasks[|tasks| - 1]) then 1 else 0)
  }

  /** The tally is exactly the number of positions holding a task that is not
      stopped. */
  lemma {:induction false} UnstoppedIsCardinality(tasks: seq<Task>)
    ensures Unstopped(tasks) == |set k | 0 <= k < |tasks| && NotStopped(tasks[k])|
    decreases |tasks|
  {
    if |tasks| > 0 {
      var n := |tasks| - 1;
      var init := tasks[..n];
      UnstoppedIsCardinality(init);
      var before := set k | 0 <= k < |init| && NotStopped(init[k]);
      var after := set k | 0 <= k < |tasks| && NotStopped(tasks[k]);
      assert before == set k | 0 <= k < n && NotStopped(tasks[k]);
      if NotStopped(tasks[n]) {
        assert after == before + {n};
      } else {
        assert after == before;
      }
    }
  }

  // ----- Observations of a request trace -----

  /** The task ARNs of the reply to the most recent ListTasks of `calls`; empty
      (the source's nil slice) before any. */
  function LastListed(api: EcsApi, calls: seq<Request>): seq<string>
    decreases |calls|
  {
    if |calls| == 0 then []
    else if calls[|calls| - 1].ListTasks? then
      match api.listTasks(calls)
      case Failure(_) => []
      case Success(arns) => arns
    else LastListed(api, calls[..|calls| - 1])
  }

  /** The tally of the reply to the most recent DescribeTasks of `calls`. */
  function LastTally(api: EcsApi, calls: seq<Request>): Option<nat>
    decreases |calls|
  {
    if |calls| == 0 then None
    else if calls[|calls| - 1].DescribeTasks? then
      match api.describeTasks(calls)
      case Failure(_) => None
      case Success(tasks) => Some(Unstopped(tasks))
    else LastTally(api, calls[..|calls| - 1])
  }

  /** Some ListTasks was issued in `calls`. */
  predicate TasksListed(calls: seq<Request>)
    decreases |calls|
  {
    |calls| > 0 && (calls[|calls| - 1].ListTasks? || TasksListed(calls[..|calls| - 1]))
  }

  /** The number of pauses in `calls`: one per completed poll. */
  function Pauses(calls: seq<Request>): nat
    decreases |calls|
  {
    if |calls| == 0 then 0
    else Pauses(calls[..|calls| - 1]) + (if calls[|calls| - 1].Sleep? then 1 else 0)
  }

  /** `calls` ends where a poll begins: right after an instance lookup or a
      pause. */
  predicate AtPollHead(calls: seq<Request>) {
    |calls| > 0 && (calls[|calls| - 1].DescribeContainerInstances? || calls[|calls| - 1].Sleep?)
  }

  /** `calls` ends with the instance re-fetch that follows a ListTasks: the
      only poll head at which the loop goes on to describe the tasks whatever
      the fetched status says. */
  predicate Refetched(calls: seq<Request>) {
    |calls| >= 3 && calls[|calls| - 3].ListTasks?
  }

  /** The loop's gate after `calls`: the latest tally, or the instance's own
      running-task count (`initial`) before the first one. */
  function PendingCount(api: EcsApi, initial: int, calls: seq<Request>): int {
    match LastTally(api, calls)
    case Some(n) => n
    case None => initial
  }

  /** When `r` may be issued after `before`:
      - an instance listing only first, or right after a ListTasks (the
        re-fetch), and its description right after it, for the listed ARNs;
      - the DRAINING update only at the head of a poll other than the
        re-fetch (the loop goes on to the tasks after it), while tasks are
        pending and the last snapshot of the instance is not DRAINING, and for
        exactly that instance;
      - ListTasks only right after that update, for the same instance;
      - DescribeTasks only at the head of a poll, while tasks are pending,
        either with the last snapshot DRAINING or straight after the re-fetch
        (otherwise the poll must start with the update), and always for the
        drain set of the most recent ListTasks, which must be non-empty;
      - the pause only right after a DescribeTasks;
      - every call only against `cluster`. */
  predicate Allowed(api: EcsApi, cluster: string, ec2: string, initial: int, before: seq<Request>, r: Request) {
    match r
    case ListContainerInstances(c) =>
      && c == cluster
      && (|before| == 0 || before[|before| - 1].ListTasks?)
    case DescribeContainerInstances(c, arns) =>
      && c == cluster
      && |before| > 0
      && before[|before| - 1] == ListContainerInstances(cluster)
      && api.listContainerInstances(before) == Success(arns)
    case UpdateContainerInstancesState(c, arns, status) =>
      && c == cluster
      && status == Draining
      && AtPollHead(before)
      && !Refetched(before)
      && PendingCount(api, initial, before) > 0
      && LastSnapshot(api, ec2, before).Some?
      && LastSnapshot(api, ec2, before).value.status != Draining
      && arns == [LastSnapshot(api, ec2, before).value.arn]
    case ListTasks(c, instance) =>
      && c == cluster
      && |before| > 0
      && before[|before| - 1] == UpdateContainerInstancesState(cluster, [instance], Draining)
    case DescribeTasks(c, arns) =>
      && c == cluster
      && AtPollHead(before)
      && PendingCount(api, initial, before) > 0
      && LastSnapshot(api, ec2, before).Some?
      && (LastSnapshot(api, ec2, before).value.status == Draining || Refetched(before))
      && arns == LastListed(api, before)
      && |arns| > 0
    case Sleep(seconds) =>
      && seconds == PollSeconds
      && |before| > 0
      && before[|before| - 1].DescribeTasks?
  }

  /** Every request of `calls` was allowed when it was issued. */
  predicate WellFormed(api: EcsApi, cluster: string, ec2: string, initial: int, calls: seq<Request>) {
    forall k | 0 <= k < |calls| :: AllowedAt(api, cluster, ec2, initial, calls, k)
  }

  /** The request at index `k` of `calls` was allowed when it was issued. */
  predicate AllowedAt(api: EcsApi, cluster: string, ec2: string, initial: int, calls: seq<Request>, k: nat)
    requires k < |calls|
  {
    Allowed(api, cluster, ec2, initial, calls[..k], calls[k])
  }

  /** Why a run of at most `fuel` polls ended:
      - nil only at the head of a poll, with the instance found, and either the
        gate reading zero or the drain set empty, where an empty drain set
        means the tasks were listed and none came back, or the instance was
        DRAINING and its tasks were never listed;
      - an API error only as the reply to the last call, all earlier calls
        having succeeded;
      - not-found only when the last call, a DescribeContainerInstances,
        answered without the instance;
      - out of fuel only at the head of a poll with tasks pending, after
        exactly `fuel` polls, every call having succeeded. */
  predicate ExitJustified(api: EcsApi, cluster: string, ec2: string, initial: int, fuel: nat, r: Run) {
    match r.outcome
    case Succeeded =>
      && Clean(api, r.calls)
      && AtPollHead(r.calls)
      && LastSnapshot(api, ec2, r.calls).Some?
      && (|| PendingCount(api, initial, r.calls) <= 0
          || (&& |LastListed(api, r.calls)| == 0
              && (TasksListed(r.calls) || LastSnapshot(api, ec2, r.calls).value.status == Draining)))
    case Unfinished =>
      && Clean(api, r.calls)
      && AtPollHead(r.calls)
      && PendingCount(api, initial, r.calls) > 0
      && Pauses(r.calls) == fuel
    case Failed(e) => FailureJustified(api, cluster, ec2, r.calls, e)
  }

  /** A run that stops with error `e` after `calls`: the error is the last
      call's, and every earlier call succeeded. */
  predicate FailureJustified(api: EcsApi, cluster: string, ec2: string, calls: seq<Request>, e: Error) {
    && |calls| > 0
    && Clean(api, calls[..|calls| - 1])
    && match e
       case Api(cause) => ReplyError(api, calls) == Some(cause)
       case NotFound(instance, c) =>
         && instance == ec2 && c == cluster
         && ReplyError(api, calls).None?
         && calls[|calls| - 1].DescribeContainerInstances?
         && LastSnapshot(api, ec2, calls).None?
       case _ => false
  }

  // ----- The loop -----

  /** The loop's variables: the last fetched instance, the drain set, the
      number of tasks still to shut down, and the requests issued so far. */
  datatype Drainer = Drainer(instance: ContainerInstance, drainSet: seq<string>, pending: int, calls: seq<Request>)

  datatype Refresh = Refreshed(state: Drainer) | Aborted(calls: seq<Request>, error: Error)

  datatype Run = Run(calls: seq<Request>, outcome: Outcome)

  /** The head of each poll: when the last fetched status is not DRAINING, ask
      for DRAINING, replace the drain set by the instance's current task list,
      and fetch the instance again. Otherwise nothing happens. */
  function StartDraining(api: EcsApi, cluster: string, ec2: string, s: Drainer): Refresh {
    if s.instance.status == Draining then Refreshed(s)
    else
      var updated := s.calls + [UpdateContainerInstancesState(cluster, [s.instance.arn], Draining)];
      match api.updateContainerInstancesState(updated)
      case Some(e) => Aborted(updated, Api(e))
      case None =>
        var listed := updated + [ListTasks(cluster, s.instance.arn)];
        match api.listTasks(listed)
        case Failure(e) => Aborted(listed, Api(e))
        case Success(arns) =>
          var f := GetContainerInstance(api, cluster, ec2, listed);
          match f.result
          case Failure(e) => Aborted(f.calls, e)
          case Success(instance) => Refreshed(Drainer(instance, arns, s.pending, f.calls))
  }

  /** What one poll leads to: the end of the run, or the loop variables for
      the next poll. */
  datatype Next = Stop(run: Run) | Continue(state: Drainer)

  /** One pass of the loop body, entered with tasks pending: start draining if
      needed, stop on an empty drain set, otherwise describe the drain set,
      re-tally, and pause. */
  function PollOnce(api: EcsApi, cluster: string, ec2: string, s: Drainer): Next {
    match StartDraining(api, cluster, ec2, s)
    case Aborted(calls, e) => Stop(Run(calls, Failed(e)))
    case Refreshed(t) =>
      if |t.drainSet| == 0 then Stop(Run(t.calls, Succeeded))
      else
        var described := t.calls + [DescribeTasks(cluster, t.drainSet)];
        match api.describeTasks(described)
        case Failure(e) => Stop(Run(described, Failed(Api(e))))
        case Success(tasks) => Continue(t.(pending := Unstopped(tasks), calls := described + [Sleep(PollSeconds)]))
  }

  /** The `for tasksToShutdownCount > 0` loop, with at most `fuel` polls. */
  function Poll(api: EcsApi, cluster: string, ec2: string, s: Drainer, fuel: nat): Run
    decreases fuel
  {
    if s.pending <= 0 then Run(s.calls, Succeeded)
    else if fuel == 0 then Run(s.calls, Unfinished)
    else
      match PollOnce(api, cluster, ec2, s)
      case Stop(r) => r
      case Continue(t) => Poll(api, cluster, ec2, t, fuel - 1)
  }

  /** The running-task count of the instance as first fetched: the loop's
      initial gate. */
  function InitialCount(api: EcsApi, cluster: string, ec2: string): int {
    match GetContainerInstance(api, cluster, ec2, []).result
    case Success(instance) => RunningCount(instance)
    case Failure(_) => 0
  }

  /** `Drain(ecsCluster, ec2Instance)`: every request it issues was allowed when
      issued, and it ends only for a justified reason. */
  function Drain(api: EcsApi, cluster: string, ec2: string, fuel: nat): (r: Run)
    ensures |r.calls| > 0 && r.calls[0] == ListContainerInstances(cluster)
    ensures WellFormed(api, cluster, ec2, InitialCount(api, cluster, ec2), r.calls)
    ensures ExitJustified(api, cluster, ec2, InitialCount(api, cluster, ec2), fuel, r)
  {
    var f := GetContainerInstance(api, cluster, ec2, []);
    match f.result
    case Failure(e) =>
      var r := Run(f.calls, Failed(e));
      LookupRunSound(api, cluster, ec2, InitialCount(api, cluster, ec2), f);
      r
    case Success(instance) =>
      var s := Drainer(instance, [], RunningCount(instance), f.calls);
      InitialStateTracks(api, cluster, ec2, f);
      PollSound(api, cluster, ec2, RunningCount(instance), s, fuel);
      Poll(api, cluster, ec2, s, fuel)
  }

  // ----- Proofs -----

  /** The loop variables agree with what the trace shows, and the trace so far
      is well formed and error free. */
  predicate Tracks(api: EcsApi, cluster: string, ec2: string, initial: int, s: Drainer) {
    && LastSnapshot(api, ec2, s.calls) == Some(s.instance)
    && LastListed(api, s.calls) == s.drainSet
    && s.pending == PendingCount(api, initial, s.calls)
    && WellFormed(api, cluster, ec2, initial, s.calls)
    && Clean(api, s.calls)
    && AtPollHead(s.calls)
  }

  /** How appending one request changes the observations. */
  lemma AppendObservations(api: EcsApi, ec2: string, calls: seq<Request>, r: Request)
    ensures (calls + [r])[..|calls|] == calls
    ensures !r.DescribeContainerInstances? ==> LastSnapshot(api, ec2, calls + [r]) == LastSnapshot(api, ec2, calls)
    ensures !r.ListTasks? ==> LastListed(api, calls + [r]) == LastListed(api, calls)
    ensures !r.DescribeTasks? ==> LastTally(api, calls + [r]) == LastTally(api, calls)
    ensures TasksListed(calls + [r]) == (r.ListTasks? || TasksListed(calls))
    ensures Pauses(calls + [r]) == Pauses(calls) + (if r.Sleep? then 1 else 0)
  {
    assert (calls + [r])[..|calls|] == calls;
  }

  lemma AppendWellFormed(api: EcsApi, cluster: string, ec2: string, initial: int, calls: seq<Request>, r: Request)
    requires WellFormed(api, cluster, ec2, initial, calls)
    requires Allowed(api, cluster, ec2, initial, calls, r)
    ensures WellFormed(api, cluster, ec2, initial, calls + [r])
  {
    var calls' := calls + [r];
    forall k | 0 <= k < |calls'|
      ensures AllowedAt(api, cluster, ec2, initial, calls', k)
    {
      if k < |calls| {
        assert AllowedAt(api, cluster, ec2, initial, calls, k);
        assert calls'[..k] == calls[..k];
      } else {
        assert calls'[..k] == calls;
      }
    }
  }

  lemma AppendClean(api: EcsApi, calls: seq<Request>, r: Request)
    requires Clean(api, calls)
    requires ReplyError(api, calls + [r]).None?
    ensures Clean(api, calls + [r])
  {
    var calls' := calls + [r];
    forall k | 0 < k <= |calls'|
      ensures SucceededAt(api, calls', k)
    {
      if k <= |calls| {
        assert SucceededAt(api, calls, k);
        assert calls'[..k] == calls[..k];
      } else {
        assert calls'[..k] == calls';
      }
    }
  }

  /** Appending the calls of an instance lookup keeps a trace well formed and,
      on success, clean, and leaves the drain set and the tally alone. */
  lemma LookupKeepsTrace(api: EcsApi, cluster: string, ec2: string, initial: int, calls: seq<Request>)
    requires WellFormed(api, cluster, ec2, initial, calls)
    requires Clean(api, calls)
    requires |calls| == 0 || calls[|calls| - 1].ListTasks?
    ensures var f := GetContainerInstance(api, cluster, ec2, calls);
      && WellFormed(api, cluster, ec2, initial, f.calls)
      && Clean(api, f.calls[..|f.calls| - 1])
      && (ReplyError(api, f.calls).None? ==> Clean(api, f.calls))
      && (f.result.Success? ==> AtPollHead(f.calls))
      && LastListed(api, f.calls) == LastListed(api, calls)
      && LastTally(api, f.calls) == LastTally(api, calls)
      && TasksListed(f.calls) == TasksListed(calls)
      && Pauses(f.calls) == Pauses(calls)
  {
    var f := GetContainerInstance(api, cluster, ec2, calls);
    var first := f.calls[|calls|];
    AppendObservations(api, ec2, calls, first);
    AppendWellFormed(api, cluster, ec2, initial, calls, first);
    assert f.calls[..|calls| + 1] == calls + [first];
    if |f.calls| == |calls| + 1 {
      assert f.calls == calls + [first];
      assert f.calls[..|f.calls| - 1] == calls;
      if ReplyError(api, f.calls).None? {
        AppendClean(api, calls, first);
      }
    } else {
      var second := f.calls[|calls| + 1];
      var mid := calls + [first];
      assert f.calls == mid + [second];
      assert f.calls[..|f.calls| - 1] == mid;
      assert ReplyError(api, f.calls[..|calls| + 1]).None?;
      AppendClean(api, calls, first);
      AppendObservations(api, ec2, mid, second);
      AppendWellFormed(api, cluster, ec2, initial, mid, second);
      if ReplyError(api, f.calls).None? {
        AppendClean(api, mid, second);
      }
    }
  }

  /** A run that stops in the first instance lookup is justified. */
  lemma LookupRunSound(api: EcsApi, cluster: string, ec2: string, initial: int, f: Fetched)
    requires f == GetContainerInstance(api, cluster, ec2, [])
    requires f.result.Failure?
    ensures WellFormed(api, cluster, ec2, initial, f.calls)
    ensures FailureJustified(api, cluster, ec2, f.calls, f.result.error)
  {
    LookupKeepsTrace(api, cluster, ec2, initial, []);
  }

  lemma InitialStateTracks(api: EcsApi, cluster: string, ec2: string, f: Fetched)
    requires f == GetContainerInstance(api, cluster, ec2, [])
    requires f.result.Success?
    ensures Tracks(api, cluster, ec2, RunningCount(f.result.value), Drainer(f.result.value, [], RunningCount(f.result.value), f.calls))
    ensures Pauses(f.calls) == 0
    ensures !Refetched(f.calls)
  {
    LookupKeepsTrace(api, cluster, ec2, RunningCount(f.result.value), []);
  }

  /** Issuing one allowed request on a clean, well-formed trace: the trace stays
      well formed, and it either stays clean or ends justified by the error. */
  lemma Issue(api: EcsApi, cluster: string, ec2: string, initial: int, calls: seq<Request>, r: Request)
    requires WellFormed(api, cluster, ec2, initial, calls)
    requires Clean(api, calls)
    requires Allowed(api, cluster, ec2, initial, calls, r)
    ensures (calls + [r])[..|calls|] == calls
    ensures WellFormed(api, cluster, ec2, initial, calls + [r])
    ensures ReplyError(api, calls + [r]).None? ==> Clean(api, calls + [r])
    ensures ReplyError(api, calls + [r]).Some? ==>
      FailureJustified(api, cluster, ec2, calls + [r], Api(ReplyError(api, calls + [r]).value))
  {
    AppendObservations(api, ec2, calls, r);
    AppendWellFormed(api, cluster, ec2, initial, calls, r);
    if ReplyError(api, calls + [r]).None? {
      AppendClean(api, calls, r);
    }
  }

  /** The refresh branch of a poll, once the DRAINING update has succeeded. */
  lemma RefreshSound(api: EcsApi, cluster: string, ec2: string, initial: int, s: Drainer, updated: seq<Request>)
    requires Tracks(api, cluster, ec2, initial, s)
    requires s.instance.status != Draining
    requires updated == s.calls + [UpdateContainerInstancesState(cluster, [s.instance.arn], Draining)]
    requires WellFormed(api, cluster, ec2, initial, updated) && Clean(api, updated)
    ensures var listed := updated + [ListTasks(cluster, s.instance.arn)];
      && WellFormed(api, cluster, ec2, initial, listed)
      && s.calls <= listed
      && match api.listTasks(listed)
         case Failure(e) => FailureJustified(api, cluster, ec2, listed, Api(e))
         case Success(arns) =>
           var f := GetContainerInstance(api, cluster, ec2, listed);
           && s.calls <= f.calls
           && WellFormed(api, cluster, ec2, initial, f.calls)
           && (f.result.Failure? ==> FailureJustified(api, cluster, ec2, f.calls, f.result.error))
           && (f.result.Success? ==> Tracks(api, cluster, ec2, initial, Drainer(f.result.value, arns, s.pending, f.calls)))
           && (f.result.Success? ==> Refetched(f.calls))
           && TasksListed(f.calls)
           && Pauses(f.calls) == Pauses(s.calls)
  {
    var list := ListTasks(cluster, s.instance.arn);
    var listed := updated + [list];
    AppendObservations(api, ec2, s.calls, UpdateContainerInstancesState(cluster, [s.instance.arn], Draining));
    Issue(api, cluster, ec2, initial, updated, list);
    AppendObservations(api, ec2, updated, list);
    if api.listTasks(listed).Success? {
      LookupKeepsTrace(api, cluster, ec2, initial, listed);
      var f := GetContainerInstance(api, cluster, ec2, listed);
      assert s.calls <= f.calls by {
        assert f.calls[..|listed|] == listed;
      }
    }
  }

  /** The head of a poll keeps the loop variables in step with the trace, or
      ends the run for a justified reason. */
  lemma StartDrainingSound(api: EcsApi, cluster: string, ec2: string, initial: int, s: Drainer)
    requires Tracks(api, cluster, ec2, initial, s) && !Refetched(s.calls)
    requires s.pending > 0
    ensures match StartDraining(api, cluster, ec2, s)
      case Refreshed(t) =>
        && Tracks(api, cluster, ec2, initial, t)
        && t.pending == s.pending
        && s.calls <= t.calls
        && Pauses(t.calls) == Pauses(s.calls)
        && (t.instance.status == Draining || TasksListed(t.calls))
        && (t.instance.status == Draining || Refetched(t.calls))
      case Aborted(calls, e) =>
        && s.calls <= calls
        && WellFormed(api, cluster, ec2, initial, calls)
        && FailureJustified(api, cluster, ec2, calls, e)
  {
    if s.instance.status != Draining {
      var update := UpdateContainerInstancesState(cluster, [s.instance.arn], Draining);
      var updated := s.calls + [update];
      Issue(api, cluster, ec2, initial, s.calls, update);
      if api.updateContainerInstancesState(updated).None? {
        RefreshSound(api, cluster, ec2, initial, s, updated);
      }
    }
  }

  /** One full poll after the refresh: describe the drain set and pause. */
  lemma DescribeSound(api: EcsApi, cluster: string, ec2: string, initial: int, t: Drainer)
    requires Tracks(api, cluster, ec2, initial, t)
    requires t.pending > 0 && |t.drainSet| > 0
    requires t.instance.status == Draining || Refetched(t.calls)
    ensures var described := t.calls + [DescribeTasks(cluster, t.drainSet)];
      && t.calls <= described
      && WellFormed(api, cluster, ec2, initial, described)
      && match api.describeTasks(described)
         case Failure(e) => FailureJustified(api, cluster, ec2, described, Api(e))
         case Success(tasks) =>
           var slept := described + [Sleep(PollSeconds)];
           && t.calls <= slept
           && Tracks(api, cluster, ec2, initial, t.(pending := Unstopped(tasks), calls := slept))
           && !Refetched(slept)
           && Pauses(slept) == Pauses(t.calls) + 1
  {
    var describe := DescribeTasks(cluster, t.drainSet);
    var described := t.calls + [describe];
    AppendObservations(api, ec2, t.calls, describe);
    Issue(api, cluster, ec2, initial, t.calls, describe);
    if api.describeTasks(described).Success? {
      var pause := Sleep(PollSeconds);
      var slept := described + [pause];
      AppendObservations(api, ec2, described, pause);
      Issue(api, cluster, ec2, initial, described, pause);
    }
  }

  /** A run that stops at the head of a poll, with the loop variables in step
      with the trace, is justified: by the gate, by the fuel, or by an empty
      drain set that was listed or never needed listing. */
  lemma HeadExitSound(api: EcsApi, cluster: string, ec2: string, initial: int, fuel: nat, s: Drainer, outcome: Outcome)
    requires Tracks(api, cluster, ec2, initial, s)
    requires outcome == Succeeded ==>
      s.pending <= 0 || (|s.drainSet| == 0 && (s.instance.status == Draining || TasksListed(s.calls)))
    requires outcome == Unfinished ==> s.pending > 0 && Pauses(s.calls) == fuel
    requires !outcome.Failed?
    ensures ExitJustified(api, cluster, ec2, initial, fuel, Run(s.calls, outcome))
  {
  }

  lemma PrefixTransitive(a: seq<Request>, b: seq<Request>, c: seq<Request>)
    requires a <= b && b <= c
    ensures a <= c
  {
  }

  /** One pass of the loop body either ends the run for a justified reason or
      hands on loop variables in step with the longer trace, one pause later. */
  lemma PollOnceSound(api: EcsApi, cluster: string, ec2: string, initial: int, fuel: nat, s: Drainer)
    requires Tracks(api, cluster, ec2, initial, s) && !Refetched(s.calls)
    requires s.pending > 0
    ensures match PollOnce(api, cluster, ec2, s)
      case Stop(r) =>
        && s.calls <= r.calls
        && WellFormed(api, cluster, ec2, initial, r.calls)
        && ExitJustified(api, cluster, ec2, initial, fuel, r)
      case Continue(t) =>
        && Tracks(api, cluster, ec2, initial, t) && !Refetched(t.calls)
        && s.calls <= t.calls
        && Pauses(t.calls) == Pauses(s.calls) + 1
  {
    StartDrainingSound(api, cluster, ec2, initial, s);
    match StartDraining(api, cluster, ec2, s)
    case Aborted(calls, e) =>
    case Refreshed(t) =>
      if |t.drainSet| == 0 {
        HeadExitSound(api, cluster, ec2, initial, fuel, t, Succeeded);
      } else {
        DescribeSound(api, cluster, ec2, initial, t);
        var described := t.calls + [DescribeTasks(cluster, t.drainSet)];
        if api.describeTasks(described).Success? {
          PrefixTransitive(s.calls, t.calls, described + [Sleep(PollSeconds)]);
        } else {
          PrefixTransitive(s.calls, t.calls, described);
        }
      }
  }

  /** Induction over the polls: from a state in step with its trace, the loop
      issues only allowed requests and stops only for a justified reason. */
  lemma {:induction false} PollSound(api: EcsApi, cluster: string, ec2: string, initial: int, s: Drainer, fuel: nat)
    requires Tracks(api, cluster, ec2, initial, s) && !Refetched(s.calls)
    ensures var r := Poll(api, cluster, ec2, s, fuel);
      && s.calls <= r.calls
      && WellFormed(api, cluster, ec2, initial, r.calls)
      && ExitJustified(api, cluster, ec2, initial, Pauses(s.calls) + fuel, r)
    decreases fuel, 2
  {
    if s.pending <= 0 {
      HeadExitSound(api, cluster, ec2, initial, Pauses(s.calls) + fuel, s, Succeeded);
    } else if fuel == 0 {
      HeadExitSound(api, cluster, ec2, initial, Pauses(s.calls) + fuel, s, Unfinished);
    } else {
      PollStepSound(api, cluster, ec2, initial, s, fuel);
    }
  }

  /** The inductive step: a poll with tasks pending and fuel left. */
  lemma {:induction false} PollStepSound(api: EcsApi, cluster: string, ec2: string, initial: int, s: Drainer, fuel: nat)
    requires Tracks(api, cluster, ec2, initial, s) && !Refetched(s.calls)
    requires s.pending > 0 && fuel > 0
    ensures var r := Poll(api, cluster, ec2, s, fuel);
      && s.calls <= r.calls
      && WellFormed(api, cluster, ec2, initial, r.calls)
      && ExitJustified(api, cluster, ec2, initial, Pauses(s.calls) + fuel, r)
    decreases fuel, 1
  {
    PollOnceSound(api, cluster, ec2, initial, Pauses(s.calls) + fuel, s);
    if PollOnce(api, cluster, ec2, s).Continue? {
      ContinueSound(api, cluster, ec2, initial, s, PollOnce(api, cluster, ec2, s).state, fuel);
    }
  }

  /** When a poll hands on loop variables `t`, the rest of the run, justified
      from `t` on, is justified from `s`, which holds one fuel unit and one
      pause more. */
  lemma {:induction false} ContinueSound(api: EcsApi, cluster: string, ec2: string, initial: int, s: Drainer, t: Drainer, fuel: nat)
    requires s.pending > 0 && fuel > 0
    requires PollOnce(api, cluster, ec2, s) == Continue(t)
    requires Tracks(api, cluster, ec2, initial, t) && !Refetched(t.calls)
    requires s.calls <= t.calls && Pauses(t.calls) == Pauses(s.calls) + 1
    ensures var r := Poll(api, cluster, ec2, s, fuel);
      && s.calls <= r.calls
      && WellFormed(api, cluster, ec2, initial, r.calls)
      && ExitJustified(api, cluster, ec2, initial, Pauses(s.calls) + fuel, r)
    decreases fuel, 0
  {
    var r := Poll(api, cluster, ec2, t, fuel - 1);
    PollContinues(api, cluster, ec2, s, t, fuel);
    PollSound(api, cluster, ec2, initial, t, fuel - 1);
    PrefixTransitive(s.calls, t.calls, r.calls);
  }

  /** A poll that carries on hands the rest of the fuel to the next one. */
  lemma PollContinues(api: EcsApi, cluster: string, ec2: string, s: Drainer, t: Drainer, fuel: nat)
    requires s.pending > 0 && fuel > 0
    requires PollOnce(api, cluster, ec2, s) == Continue(t)
    ensures Poll(api, cluster, ec2, s, fuel) == Poll(api, cluster, ec2, t, fuel - 1)
  {
  }
}

=== FILE: drain_properties.dfy ===
/** Properties of `Drain` that relate its result to the first instance lookup,
    to other fuel bounds, or to positions in its trace. */
module DrainProperties {
  import opened Wrappers
  import opened Errors
  import opened Ecs
  import opened DrainEngine

  /** With a nil or zero running-task count, Drain returns nil after the
      instance lookup alone: no state update, task listing or task description. */
  lemma NoRunningTasksNoDrainCalls(api: EcsApi, cluster: string, ec2: string, fuel: nat)
    requires GetContainerInstance(api, cluster, ec2, []).result.Success?
    requires RunningCount(GetContainerInstance(api, cluster, ec2, []).result.value) <= 0
    ensures Drain(api, cluster, ec2, fuel).outcome == Succeeded
    ensures forall k | 0 <= k < |Drain(api, cluster, ec2, fuel).calls| :: IsLookupCall(cluster, Drain(api, cluster, ec2, fuel).calls[k])
  {
  }

  /** An instance that is already DRAINING when first fetched never had its
      tasks listed, so its drain set is empty and Drain returns nil at the
      first poll, without describing any task, however many tasks it runs. */
  lemma AlreadyDrainingReturnsAtOnce(api: EcsApi, cluster: string, ec2: string, fuel: nat)
    requires GetContainerInstance(api, cluster, ec2, []).result.Success?
    requires GetContainerInstance(api, cluster, ec2, []).result.value.status == Draining
    requires fuel > 0
    ensures Drain(api, cluster, ec2, fuel) == Run(GetContainerInstance(api, cluster, ec2, []).calls, Succeeded)
  {
  }

  /** More fuel changes nothing for a run that already ended within its fuel:
      the bound only cuts runs short, it never alters them. */
  lemma {:induction false} PollFuelMonotone(api: EcsApi, cluster: string, ec2: string, s: Drainer, fuel: nat, more: nat)
    requires fuel <= more
    requires Poll(api, cluster, ec2, s, fuel).outcome != Unfinished
    ensures Poll(api, cluster, ec2, s, more) == Poll(api, cluster, ec2, s, fuel)
    decreases fuel
  {
    if s.pending > 0 && fuel > 0 {
      match PollOnce(api, cluster, ec2, s)
      case Stop(_) =>
      case Continue(t) => PollFuelMonotone(api, cluster, ec2, t, fuel - 1, more - 1);
    }
  }

  lemma DrainFuelMonotone(api: EcsApi, cluster: string, ec2: string, fuel: nat, more: nat)
    requires fuel <= more
    requires Drain(api, cluster, ec2, fuel).outcome != Unfinished
    ensures Drain(api, cluster, ec2, more) == Drain(api, cluster, ec2, fuel)
  {
    var f := GetContainerInstance(api, cluster, ec2, []);
    if f.result.Success? {
      var s := Drainer(f.result.value, [], RunningCount(f.result.value), f.calls);
      PollFuelMonotone(api, cluster, ec2, s, fuel, more);
    }
  }

  /** The drain set seen at index `j` is the one seen at index `i` when no
      ListTasks was issued in between. */
  lemma {:induction false} LastListedStable(api: EcsApi, calls: seq<Request>, i: nat, j: nat)
    requires i <= j <= |calls|
    requires forall m | i <= m < j :: !calls[m].ListTasks?
    ensures LastListed(api, calls[..j]) == LastListed(api, calls[..i])
    decreases j - i
  {
    if i < j {
      LastListedStable(api, calls, i, j - 1);
      assert calls[..j][..j - 1] == calls[..j - 1];
    }
  }

  /** The drain set is captured once and reused: two DescribeTasks calls with no
      ListTasks between them ask about the same tasks. */
  lemma DrainSetReused(api: EcsApi, cluster: string, ec2: string, fuel: nat, i: nat, j: nat)
    requires i < j < |Drain(api, cluster, ec2, fuel).calls|
    requires Drain(api, cluster, ec2, fuel).calls[i].DescribeTasks?
    requires Drain(api, cluster, ec2, fuel).calls[j].DescribeTasks?
    requires forall m | i < m < j :: !Drain(api, cluster, ec2, fuel).calls[m].ListTasks?
    ensures Drain(api, cluster, ec2, fuel).calls[i].tasks == Drain(api, cluster, ec2, fuel).calls[j].tasks
  {
    var r := Drain(api, cluster, ec2, fuel);
    TraceReusesDrainSet(api, cluster, ec2, InitialCount(api, cluster, ec2), r.calls, i, j);
  }

  /** The same fact for any trace whose every request was allowed. */
  lemma TraceReusesDrainSet(api: EcsApi, cluster: string, ec2: string, initial: int, calls: seq<Request>, i: nat, j: nat)
    requires WellFormed(api, cluster, ec2, initial, calls)
    requires i < j < |calls|
    requires calls[i].DescribeTasks? && calls[j].DescribeTasks?
    requires forall m | i < m < j :: !calls[m].ListTasks?
    ensures calls[i].tasks == calls[j].tasks
  {
    assert AllowedAt(api, cluster, ec2, initial, calls, i);
    assert AllowedAt(api, cluster, ec2, initial, calls, j);
    LastListedStable(api, calls, i + 1, j);
    assert calls[..i + 1] == calls[..i] + [calls[i]];
    AppendObservations(api, ec2, calls[..i], calls[i]);
  }

  /** A task description whose tally is zero ends the run: the pause after it
      is the last request, and Drain returns nil. */
  lemma ZeroTallyEndsDrain(api: EcsApi, cluster: string, ec2: string, fuel: nat, k: nat, tasks: seq<Task>)
    requires k < |Drain(api, cluster, ec2, fuel).calls|
    requires Drain(api, cluster, ec2, fuel).calls[k].DescribeTasks?
    requires api.describeTasks(Drain(api, cluster, ec2, fuel).calls[..k + 1]) == Success(tasks)
    requires Unstopped(tasks) == 0
    ensures |Drain(api, cluster, ec2, fuel).calls| == k + 2
    ensures Drain(api, cluster, ec2, fuel).calls[k + 1] == Sleep(PollSeconds)
    ensures Drain(api, cluster, ec2, fuel).outcome == Succeeded
  {
    TraceZeroTally(api, cluster, ec2, InitialCount(api, cluster, ec2), fuel, Drain(api, cluster, ec2, fuel), k, tasks);
  }

  /** The same fact for any allowed trace whose exit is justified. */
  lemma TraceZeroTally(api: EcsApi, cluster: string, ec2: string, initial: int, fuel: nat, r: Run, k: nat, tasks: seq<Task>)
    requires WellFormed(api, cluster, ec2, initial, r.calls)
    requires ExitJustified(api, cluster, ec2, initial, fuel, r)
    requires k < |r.calls| && r.calls[k].DescribeTasks?
    requires api.describeTasks(r.calls[..k + 1]) == Success(tasks)
    requires Unstopped(tasks) == 0
    ensures |r.calls| == k + 2 && r.calls[k + 1] == Sleep(PollSeconds) && r.outcome == Succeeded
  {
    var calls := r.calls;
    PauseFollowsTally(api, cluster, ec2, initial, fuel, r, k, tasks);
    assert PendingCount(api, initial, calls[..k + 2]) == 0;
    assert k + 2 < |calls| ==> AllowedAt(api, cluster, ec2, initial, calls, k + 2);
    assert |calls| == k + 2;
    assert calls == calls[..k + 2];
  }

  /** A task description that succeeds is always followed by the pause, after
      which the gate reads its tally. */
  lemma PauseFollowsTally(api: EcsApi, cluster: string, ec2: string, initial: int, fuel: nat, r: Run, k: nat, tasks: seq<Task>)
    requires WellFormed(api, cluster, ec2, initial, r.calls)
    requires ExitJustified(api, cluster, ec2, initial, fuel, r)
    requires k < |r.calls| && r.calls[k].DescribeTasks?
    requires api.describeTasks(r.calls[..k + 1]) == Success(tasks)
    ensures k + 1 < |r.calls| && r.calls[k + 1] == Sleep(PollSeconds)
    ensures PendingCount(api, initial, r.calls[..k + 2]) == Unstopped(tasks)
    ensures LastListed(api, r.calls[..k + 2]) == LastListed(api, r.calls[..k])
    ensures LastSnapshot(api, ec2, r.calls[..k + 2]) == LastSnapshot(api, ec2, r.calls[..k])
  {
    var calls := r.calls;
    var described := calls[..k + 1];
    assert LastTally(api, described) == Some(Unstopped(tasks));
    assert |calls| == k + 1 ==> calls == described;
    assert AllowedAt(api, cluster, ec2, initial, calls, k + 1);
    assert calls[..k + 1] == calls[..k] + [calls[k]];
    AppendObservations(api, ec2, calls[..k], calls[k]);
    assert calls[..k + 2] == calls[..k + 1] + [calls[k + 1]];
    AppendObservations(api, ec2, calls[..k + 1], calls[k + 1]);
  }

  /** A task description whose tally is positive does not end the run: after
      the pause the run is out of fuel, or the next poll begins with the
      DRAINING update exactly when the last snapshot of the instance is not
      DRAINING, and with another task description otherwise. */
  lemma PositiveTallyContinues(api: EcsApi, cluster: string, ec2: string, fuel: nat, k: nat, tasks: seq<Task>)
    requires k < |Drain(api, cluster, ec2, fuel).calls|
    requires Drain(api, cluster, ec2, fuel).calls[k].DescribeTasks?
    requires api.describeTasks(Drain(api, cluster, ec2, fuel).calls[..k + 1]) == Success(tasks)
    requires Unstopped(tasks) > 0
    ensures k + 1 < |Drain(api, cluster, ec2, fuel).calls|
    ensures Drain(api, cluster, ec2, fuel).calls[k + 1] == Sleep(PollSeconds)
    ensures |Drain(api, cluster, ec2, fuel).calls| == k + 2 ==> Drain(api, cluster, ec2, fuel).outcome == Unfinished
    ensures k + 2 < |Drain(api, cluster, ec2, fuel).calls| ==>
      || Drain(api, cluster, ec2, fuel).calls[k + 2].UpdateContainerInstancesState?
      || Drain(api, cluster, ec2, fuel).calls[k + 2].DescribeTasks?
    ensures LastSnapshot(api, ec2, Drain(api, cluster, ec2, fuel).calls[..k + 2]).Some?
    ensures k + 2 < |Drain(api, cluster, ec2, fuel).calls| ==>
      (Drain(api, cluster, ec2, fuel).calls[k + 2].UpdateContainerInstancesState?
       <==> LastSnapshot(api, ec2, Drain(api, cluster, ec2, fuel).calls[..k + 2]).value.status != Draining)
  {
    TracePositiveTally(api, cluster, ec2, InitialCount(api, cluster, ec2), fuel, Drain(api, cluster, ec2, fuel), k, tasks);
  }

  /** The same fact for any allowed trace whose exit is justified. */
  lemma TracePositiveTally(api: EcsApi, cluster: string, ec2: string, initial: int, fuel: nat, r: Run, k: nat, tasks: seq<Task>)
    requires WellFormed(api, cluster, ec2, initial, r.calls)
    requires ExitJustified(api, cluster, ec2, initial, fuel, r)
    requires k < |r.calls| && r.calls[k].DescribeTasks?
    requires api.describeTasks(r.calls[..k + 1]) == Success(tasks)
    requires Unstopped(tasks) > 0
    ensures k + 1 < |r.calls| && r.calls[k + 1] == Sleep(PollSeconds)
    ensures |r.calls| == k + 2 ==> r.outcome == Unfinished
    ensures k + 2 < |r.calls| ==> r.calls[k + 2].UpdateContainerInstancesState? || r.calls[k + 2].DescribeTasks?
    ensures LastSnapshot(api, ec2, r.calls[..k + 2]).Some?
    ensures k + 2 < |r.calls| ==>
      (r.calls[k + 2].UpdateContainerInstancesState? <==> LastSnapshot(api, ec2, r.calls[..k + 2]).value.status != Draining)
  {
    var calls := r.calls;
    PauseFollowsTally(api, cluster, ec2, initial, fuel, r, k, tasks);
    assert AllowedAt(api, cluster, ec2, initial, calls, k);
    var paused := calls[..k + 2];
    assert paused[k - 1] == calls[k - 1];
    assert !Refetched(paused);
    assert |LastListed(api, paused)| > 0;
    assert k + 2 < |calls| ==> AllowedAt(api, cluster, ec2, initial, calls, k + 2);
    assert |calls| == k + 2 ==> calls == paused;
  }

  /** At the head of a poll that does not follow the re-fetch, an instance
      whose last snapshot is not DRAINING makes the next request, if any, the
      DRAINING update for that instance: the loop never skips it. */
  lemma TraceUpdateStartsPoll(api: EcsApi, cluster: string, ec2: string, initial: int, calls: seq<Request>, j: nat)
    requires WellFormed(api, cluster, ec2, initial, calls)
    requires j < |calls|
    requires AtPollHead(calls[..j]) && !Refetched(calls[..j])
    requires LastSnapshot(api, ec2, calls[..j]).Some?
    requires LastSnapshot(api, ec2, calls[..j]).value.status != Draining
    ensures calls[j] == UpdateContainerInstancesState(cluster, [LastSnapshot(api, ec2, calls[..j]).value.arn], Draining)
  {
    assert AllowedAt(api, cluster, ec2, initial, calls, j);
  }

  /** The same for `Drain`'s own trace. */
  lemma UpdateStartsPoll(api: EcsApi, cluster: string, ec2: string, fuel: nat, j: nat)
    requires j < |Drain(api, cluster, ec2, fuel).calls|
    requires AtPollHead(Drain(api, cluster, ec2, fuel).calls[..j]) && !Refetched(Drain(api, cluster, ec2, fuel).calls[..j])
    requires LastSnapshot(api, ec2, Drain(api, cluster, ec2, fuel).calls[..j]).Some?
    requires LastSnapshot(api, ec2, Drain(api, cluster, ec2, fuel).calls[..j]).value.status != Draining
    ensures Drain(api, cluster, ec2, fuel).calls[j]
      == UpdateContainerInstancesState(cluster, [LastSnapshot(api, ec2, Drain(api, cluster, ec2, fuel).calls[..j]).value.arn], Draining)
  {
    TraceUpdateStartsPoll(api, cluster, ec2, InitialCount(api, cluster, ec2), Drain(api, cluster, ec2, fuel).calls, j);
  }

  /** Straight after the re-fetch that follows a ListTasks, the next request,
      if any, describes the tasks: the loop never re-sends the update within
      the same poll. */
  lemma TraceDescribeAfterRefetch(api: EcsApi, cluster: string, ec2: string, initial: int, calls: seq<Request>, j: nat)
    requires WellFormed(api, cluster, ec2, initial, calls)
    requires j < |calls| && Refetched(calls[..j])
    ensures calls[j].DescribeTasks?
  {
    assert calls[..j][j - 3] == calls[j - 3];
    assert AllowedAt(api, cluster, ec2, initial, calls, j - 2);
    assert calls[..j - 2][j - 3] == calls[j - 3];
    assert AllowedAt(api, cluster, ec2, initial, calls, j - 1);
    assert calls[..j - 1][j - 2] == calls[j - 2];
    assert AllowedAt(api, cluster, ec2, initial, calls, j);
    assert calls[..j][j - 1] == calls[j - 1];
  }

  /** The same for `Drain`'s own trace. */
  lemma DescribeAfterRefetch(api: EcsApi, cluster: string, ec2: string, fuel: nat, j: nat)
    requires j < |Drain(api, cluster, ec2, fuel).calls| && Refetched(Drain(api, cluster, ec2, fuel).calls[..j])
    ensures Drain(api, cluster, ec2, fuel).calls[j].DescribeTasks?
  {
    TraceDescribeAfterRefetch(api, cluster, ec2, InitialCount(api, cluster, ec2), Drain(api, cluster, ec2, fuel).calls, j);
  }
}

=== FILE: ecs_api.dfy ===
/** The part of the ECS API the drain logic uses, and the container-instance
    lookup `getContainerInstance`.

    The API is a record of reply functions. Each function receives the whole
    sequence of requests issued so far, ending with the request it answers, so
    an `EcsApi` value stands for any deterministic control plane, including one
    whose task states change between polls. The observation functions at the
    end read a request trace back through the API: what the most recent
    DescribeContainerInstances returned, and whether a given call failed. */
module Ecs {
  import opened Wrappers
  import opened Errors

  /** `ecs.ContainerInstanceStatusDraining`. */
  const Draining := "DRAINING"
  /** `ecs.DesiredStatusStopped`, compared against a task's last status. */
  const Stopped := "STOPPED"
  /** The pause between two polls of the task states. */
  const PollSeconds := 10

  /** An ECS container instance as described by the API. The running-task count
      is a pointer in the source and may be nil. */
  datatype ContainerInstance = ContainerInstance(
    arn: string,
    ec2InstanceId: string,
    status: string,
    runningTasksCount: Option<int>)

  /** A described task; its last status may be nil. */
  datatype Task = Task(arn: string, lastStatus: Option<string>)

  /** Every call the drain logic makes, plus the pause between polls, which
      is recorded but not interpreted. */
  datatype Request =
    | ListContainerInstances(cluster: string)
    | DescribeContainerInstances(cluster: string, arns: seq<string>)
    | UpdateContainerInstancesState(cluster: string, arns: seq<string>, status: string)
    | ListTasks(cluster: string, containerInstance: string)
    | DescribeTasks(cluster: string, tasks: seq<string>)
    | Sleep(seconds: nat)

  datatype EcsApi = EcsApi(
    listContainerInstances: seq<Request> -> Result<seq<string>, ApiError>,
    describeContainerInstances: seq<Request> -> Result<seq<ContainerInstance>, ApiError>,
    updateContainerInstancesState: seq<Request> -> Option<ApiError>,
    listTasks: seq<Request> -> Result<seq<string>, ApiError>,
    describeTasks: seq<Request> -> Result<seq<Task>, ApiError>)

  /** The running-task count, with nil read as zero. */
  function RunningCount(instance: ContainerInstance): int {
    instance.runningTasksCount.GetOr(0)
  }

  /** Index of the first instance backed by EC2 instance `ec2`. */
  function FirstMatch(instances: seq<ContainerInstance>, ec2: string): (r: Option<nat>)
    ensures r.Some? ==> r.value < |instances| && instances[r.value].ec2InstanceId == ec2
    ensures r.Some? ==> forall j | 0 <= j < r.value :: instances[j].ec2InstanceId != ec2
    ensures r.None? <==> forall j | 0 <= j < |instances| :: instances[j].ec2InstanceId != ec2
  {
    if |instances| == 0 then None
    else if instances[0].ec2InstanceId == ec2 then Some(0)
    else match FirstMatch(instances[1..], ec2)
      case None => None
      case Some(k) => Some(k + 1)
  }

  /** The first instance backed by `ec2`, if any. */
  function Lookup(instances: seq<ContainerInstance>, ec2: string): Option<ContainerInstance> {
    match FirstMatch(instances, ec2)
    case None => None
    case Some(k) => Some(instances[k])
  }

  function ErrorOf<T>(r: Result<T, ApiError>): Option<ApiError> {
    match r
    case Success(_) => None
    case Failure(e) => Some(e)
  }

  /** The error, if any, of the reply to the last request of `calls`. */
  function ReplyError(api: EcsApi, calls: seq<Request>): Option<ApiError>
    requires |calls| > 0
  {
    match calls[|calls| - 1]
    case ListContainerInstances(_) => ErrorOf(api.listContainerInstances(calls))
    case DescribeContainerInstances(_, _) => ErrorOf(api.describeContainerInstances(calls))
    case UpdateContainerInstancesState(_, _, _) => api.updateContainerInstancesState(calls)
    case ListTasks(_, _) => ErrorOf(api.listTasks(calls))
    case DescribeTasks(_, _) => ErrorOf(api.describeTasks(calls))
    case Sleep(_) => None
  }

  /** No request of `calls` was answered with an error. */
  predicate Clean(api: EcsApi, calls: seq<Request>) {
    forall k | 0 < k <= |calls| :: SucceededAt(api, calls, k)
  }

  /** The request at index `k - 1` of `calls` was answered without error. */
  predicate SucceededAt(api: EcsApi, calls: seq<Request>, k: nat)
    requires 0 < k <= |calls|
  {
    ReplyError(api, calls[..k]).None?
  }

  /** The instance backed by `ec2` in the reply to the most recent
      DescribeContainerInstances of `calls`: the last snapshot the caller saw. */
  function LastSnapshot(api: EcsApi, ec2: string, calls: seq<Request>): Option<ContainerInstance>
    decreases |calls|
  {
    if |calls| == 0 then None
    else if calls[|calls| - 1].DescribeContainerInstances? then
      match api.describeContainerInstances(calls)
      case Failure(_) => None
      case Success(instances) => Lookup(instances, ec2)
    else LastSnapshot(api, ec2, calls[..|calls| - 1])
  }

  /** A request that only reads the cluster's instances. */
  predicate IsLookupCall(cluster: string, r: Request) {
    (r.ListContainerInstances? || r.DescribeContainerInstances?) && r.cluster == cluster
  }

  datatype Fetched = Fetched(result: Result<ContainerInstance, Error>, calls: seq<Request>)

  /** `getContainerInstance`: list the cluster's container instances, describe
      them, and return the first whose EC2 instance id is `ec2`. An API error is
      returned unchanged at once; no match is a not-found error. */
  function GetContainerInstance(api: EcsApi, cluster: string, ec2: string, calls: seq<Request>): (f: Fetched)
    ensures |calls| < |f.calls| <= |calls| + 2 && f.calls[..|calls|] == calls
    ensures f.calls[|calls|] == ListContainerInstances(cluster)
    ensures var listed := calls + [ListContainerInstances(cluster)];
      api.listContainerInstances(listed).Success? ==>
        && |f.calls| == |calls| + 2
        && f.calls[|calls| + 1] == DescribeContainerInstances(cluster, api.listContainerInstances(listed).value)
    ensures forall k | |calls| <= k < |f.calls| :: IsLookupCall(cluster, f.calls[k])
    ensures forall k | |calls| < k < |f.calls| :: ReplyError(api, f.calls[..k]).None?
    ensures f.result.Success? ==>
      && ReplyError(api, f.calls).None?
      && LastSnapshot(api, ec2, f.calls) == Some(f.result.value)
      && f.result.value.ec2InstanceId == ec2
    ensures f.result.Failure? ==> f.result.error.Api? || f.result.error == NotFound(ec2, cluster)
    ensures f.result.Failure? && f.result.error.Api? ==> ReplyError(api, f.calls) == Some(f.result.error.cause)
    ensures f.result == Failure(NotFound(ec2, cluster)) ==>
      && ReplyError(api, f.calls).None?
      && f.calls[|f.calls| - 1].DescribeContainerInstances?
      && LastSnapshot(api, ec2, f.calls).None?
  {
    var listed := calls + [ListContainerInstances(cluster)];
    assert listed[..|calls|] == calls;
    match api.listContainerInstances(listed)
    case Failure(e) => Fetched(Failure(Api(e)), listed)
    case Success(arns) =>
      var described := listed + [DescribeContainerInstances(cluster, arns)];
      assert described[..|listed|] == listed;
      assert described[..|calls|] == calls;
      match api.describeContainerInstances(described)
      case Failure(e) => Fetched(Failure(Api(e)), described)
      case Success(instances) =>
        match Lookup(instances, ec2)
        case None => Fetched(Failure(NotFound(ec2, cluster)), described)
        case Some(instance) => Fetched(Success(instance), described)
  }
}

=== FILE: errors.dfy ===
/** The error values the drain lambda distinguishes, and the overall outcome of
    an operation that may also be cut short by the host's time limit. */
module Errors {

  /** An error reported by an AWS API call (ECS, EC2 or Auto Scaling). It is
      never one of the package's sentinel errors, so a `switch err` on the
      sentinels never matches it. */
  datatype ApiError = ApiError(message: string)

  datatype Error =
    /** `ErrMissingUserData`: the instance has no user data attribute. */
    | MissingUserData
    /** `ErrMissingECSClusterInUserData`: the user data has no `ECS_CLUSTER=`. */
    | MissingECSClusterInUserData
    /** `ErrInstanceTerminated`: the instance is terminated or shutting down. */
    | InstanceTerminated
    /** The formatted "%q not found in the cluster %q" error of the instance lookup. */
    | NotFound(ec2Instance: string, cluster: string)
    /** An AWS API error, returned unchanged. */
    | Api(cause: ApiError)
    /** A base64 decoding error of the user data, returned unchanged. */
    | Decode(message: string)
    /** A JSON unmarshalling error of the event detail, returned unchanged. */
    | Json(message: string)

  /** How an invocation ends: a nil error, a non-nil error, or not at all
      within the step bound (the host kills a lambda that runs too long). */
  datatype Outcome = Succeeded | Failed(error: Error) | Unfinished
}

=== FILE: handler.dfy ===
/** The event dispatcher `HandleRequest`, and `CompleteLifecycle`, the final
    action of an Auto Scaling termination event.

    JSON decoding of the event detail, cluster resolution, the drain and the
    lifecycle-hook API call are parameters of the dispatcher (`Services`), so
    the properties here are about its decisions and their order: which calls
    it makes, with which arguments, and which outcome it returns. */
module Handler {
  import opened Wrappers
  import opened Errors

  const AsgTerminateDetailType := "EC2 Instance-terminate Lifecycle Action"
  const SpotInterruptionDetailType := "EC2 Spot Instance Interruption Warning"
  /** The lifecycle-action result that lets the termination proceed. */
  const ContinueResult := "CONTINUE"

  /** A CloudWatch event: its detail type and raw JSON detail. */
  datatype CloudWatchEvent = CloudWatchEvent(detailType: string, detail: string)

  datatype AsgLifecycleDetail = AsgLifecycleDetail(
    lifecycleActionToken: string,
    autoScalingGroupName: string,
    lifecycleHookName: string,
    ec2InstanceId: string,
    lifecycleTransition: string)

  datatype SpotInterruptionDetail = SpotInterruptionDetail(instanceId: string, instanceAction: string)

  /** The arguments of the CompleteLifecycleAction API call. */
  datatype LifecycleActionInput = LifecycleActionInput(
    instanceId: string,
    lifecycleHookName: string,
    lifecycleActionToken: string,
    autoScalingGroupName: string,
    lifecycleActionResult: string)

  /** What to do once the instance is drained. */
  datatype FinalAction = NoOp | CompleteLifecycle(detail: AsgLifecycleDetail)

  /** The instance an event asks to drain and the action to run afterwards. */
  datatype Target = Target(instance: string, finalAction: FinalAction)

  datatype Services = Services(
    /** `json.Unmarshal` of the detail, per detail type; the error is its message. */
    decodeAsgDetail: string -> Result<AsgLifecycleDetail, string>,
    decodeSpotDetail: string -> Result<SpotInterruptionDetail, string>,
    /** `GetClusterNameFromInstanceUserData`, by instance id. */
    resolveCluster: string -> Result<string, Error>,
    /** `Drain`, by cluster name and instance id. */
    drain: (string, string) -> Outcome,
    /** The Auto Scaling CompleteLifecycleAction call. */
    completeLifecycleAction: LifecycleActionInput -> Option<ApiError>)

  /** The external steps of one invocation, in order. */
  datatype Step =
    | ResolveCluster(instance: string)
    | DrainInstance(cluster: string, instance: string)
    | CompleteLifecycleAction(input: LifecycleActionInput)

  datatype Handled = Handled(steps: seq<Step>, outcome: Outcome)

  /** The `switch event.DetailType`: an Auto Scaling termination targets the
      detail's EC2InstanceID and completes the lifecycle hook afterwards; a spot
      interruption targets the detail's instance-id and does nothing
      afterwards; any other detail type targets the empty instance id and does
      nothing afterwards. Only a detail that fails to decode is an error. */
  function Dispatch(event: CloudWatchEvent, svc: Services): (r: Result<Target, Error>)
    ensures r.Failure? <==>
      || (event.detailType == AsgTerminateDetailType && svc.decodeAsgDetail(event.detail).Failure?)
      || (event.detailType == SpotInterruptionDetailType && svc.decodeSpotDetail(event.detail).Failure?)
    ensures r.Failure? && event.detailType == AsgTerminateDetailType ==>
      r.error == Json(svc.decodeAsgDetail(event.detail).error)
    ensures r.Failure? && event.detailType == SpotInterruptionDetailType ==>
      r.error == Json(svc.decodeSpotDetail(event.detail).error)
    ensures r.Success? && r.value.finalAction.CompleteLifecycle? <==>
      event.detailType == AsgTerminateDetailType && svc.decodeAsgDetail(event.detail).Success?
    ensures r.Success? && r.value.finalAction.CompleteLifecycle? ==>
      r.value.finalAction.detail == svc.decodeAsgDetail(event.detail).value
      && r.value.instance == r.value.finalAction.detail.ec2InstanceId
    ensures event.detailType == SpotInterruptionDetailType && r.Success? ==>
      r.value == Target(svc.decodeSpotDetail(event.detail).value.instanceId, NoOp)
    ensures event.detailType !in {AsgTerminateDetailType, SpotInterruptionDetailType} ==> r == Success(Target("", NoOp))
  {
    if event.detailType == AsgTerminateDetailType then
      match svc.decodeAsgDetail(event.detail)
      case Failure(msg) => Failure(Json(msg))
      case Success(detail) => Success(Target(detail.ec2InstanceId, CompleteLifecycle(detail)))
    else if event.detailType == SpotInterruptionDetailType then
      match svc.decodeSpotDetail(event.detail)
      case Failure(msg) => Failure(Json(msg))
      case Success(detail) => Success(Target(detail.instanceId, NoOp))
    else Success(Target("", NoOp))
  }

  /** `(*ASGLifecycleEventDetail).CompleteLifecycle`: one CompleteLifecycleAction
      call that continues the termination of the detail's instance under its
      hook, token and group; an API error is returned unchanged. */
  function CompleteLifecycleFor(detail: AsgLifecycleDetail, svc: Services): (r: Handled)
    ensures |r.steps| == 1 && r.steps[0].CompleteLifecycleAction?
    ensures r.steps[0].input.instanceId == detail.ec2InstanceId
    ensures r.steps[0].input.lifecycleHookName == detail.lifecycleHookName
    ensures r.steps[0].input.lifecycleActionToken == detail.lifecycleActionToken
    ensures r.steps[0].input.autoScalingGroupName == detail.autoScalingGroupName
    ensures r.steps[0].input.lifecycleActionResult == ContinueResult
    ensures r.outcome.Succeeded? <==> svc.completeLifecycleAction(r.steps[0].input).None?
    ensures r.outcome.Failed? ==> r.outcome.error == Api(svc.completeLifecycleAction(r.steps[0].input).value)
    ensures !r.outcome.Unfinished?
  {
    var input := LifecycleActionInput(
      detail.ec2InstanceId, detail.lifecycleHookName, detail.lifecycleActionToken,
      detail.autoScalingGroupName, ContinueResult);
    match svc.completeLifecycleAction(input)
    case Some(e) => Handled([CompleteLifecycleAction(input)], Failed(Api(e)))
    case None => Handled([CompleteLifecycleAction(input)], Succeeded)
  }

  /** Run the final action: nothing for `NoOp`. */
  function RunFinalAction(action: FinalAction, svc: Services): Handled {
    match action
    case NoOp => Handled([], Succeeded)
    case CompleteLifecycle(detail) => CompleteLifecycleFor(detail, svc)
  }

  /** `HandleRequest`. The cluster is resolved for the target instance; only
      `ErrInstanceTerminated` skips the drain (the `switch err` has no default),
      so every other resolution error drains with the empty cluster name the
      resolver returns alongside it. The final action runs only when the
      instance is terminated or the drain returned nil. */
  function HandleRequest(event: CloudWatchEvent, svc: Services): (r: Handled)
    ensures |r.steps| <= 3
    ensures r.steps != [] ==> r.steps[0].ResolveCluster?
    ensures forall k | 0 <= k < |r.steps| && r.steps[k].CompleteLifecycleAction? :: k == |r.steps| - 1
    ensures forall k | 0 <= k < |r.steps| && r.steps[k].DrainInstance? :: k == 1
  {
    match Dispatch(event, svc)
    case Failure(e) => Handled([], Failed(e))
    case Success(target) =>
      var resolved := svc.resolveCluster(target.instance);
      var resolving := [ResolveCluster(target.instance)];
      if resolved == Failure(InstanceTerminated) then
        var final := RunFinalAction(target.finalAction, svc);
        Handled(resolving + final.steps, final.outcome)
      else
        var cluster := resolved.GetOr("");
        var draining := resolving + [DrainInstance(cluster, target.instance)];
        match svc.drain(cluster, target.instance)
        case Failed(e) => Handled(draining, Failed(e))
        case Unfinished => Handled(draining, Unfinished)
        case Succeeded =>
          var final := RunFinalAction(target.finalAction, svc);
          Handled(draining + final.steps, final.outcome)
  }
}

=== FILE: handler_properties.dfy ===
/** Ordering and "no call happened" properties of `HandleRequest`. */
module HandlerProperties {
  import opened Wrappers
  import opened Errors
  import opened Handler

  /** A detail that fails to decode is returned as the error before anything
      else: no cluster resolution, no drain, no final action. */
  lemma MalformedDetailStopsEarly(event: CloudWatchEvent, svc: Services)
    requires Dispatch(event, svc).Failure?
    ensures HandleRequest(event, svc).steps == []
    ensures HandleRequest(event, svc).outcome == Failed(Dispatch(event, svc).error)
    ensures event.detailType == AsgTerminateDetailType ==>
      HandleRequest(event, svc).outcome == Failed(Json(svc.decodeAsgDetail(event.detail).error))
    ensures event.detailType == SpotInterruptionDetailType ==>
      HandleRequest(event, svc).outcome == Failed(Json(svc.decodeSpotDetail(event.detail).error))
  {
  }

  /** A terminated (or shutting-down) instance is never drained: the handler
      runs the final action straight after resolution and returns its result. */
  lemma TerminatedSkipsDrain(event: CloudWatchEvent, svc: Services)
    requires Dispatch(event, svc).Success?
    requires svc.resolveCluster(Dispatch(event, svc).value.instance) == Failure(InstanceTerminated)
    ensures var r := HandleRequest(event, svc);
      var final := RunFinalAction(Dispatch(event, svc).value.finalAction, svc);
      && r.steps == [ResolveCluster(Dispatch(event, svc).value.instance)] + final.steps
      && r.outcome == final.outcome
      && forall k | 0 <= k < |r.steps| :: !r.steps[k].DrainInstance?
  {
  }

  /** Every other resolution outcome (a name, missing user data, no
      `ECS_CLUSTER=`, an API or decoding error) goes on to drain, with the
      resolved name, or with the empty name on an error. */
  lemma OtherResolutionsDrain(event: CloudWatchEvent, svc: Services)
    requires Dispatch(event, svc).Success?
    requires svc.resolveCluster(Dispatch(event, svc).value.instance) != Failure(InstanceTerminated)
    ensures var target := Dispatch(event, svc).value;
      var resolved := svc.resolveCluster(target.instance);
      && |HandleRequest(event, svc).steps| >= 2
      && HandleRequest(event, svc).steps[1] == DrainInstance(if resolved.Success? then resolved.value else "", target.instance)
  {
  }

  /** A failed drain is returned as is and the final action is not run. */
  lemma DrainFailureBlocksFinalAction(event: CloudWatchEvent, svc: Services, e: Error)
    requires Dispatch(event, svc).Success?
    requires svc.resolveCluster(Dispatch(event, svc).value.instance) != Failure(InstanceTerminated)
    requires svc.drain(svc.resolveCluster(Dispatch(event, svc).value.instance).GetOr(""), Dispatch(event, svc).value.instance) == Failed(e)
    ensures var target := Dispatch(event, svc).value;
      HandleRequest(event, svc) == Handled(
        [ResolveCluster(target.instance), DrainInstance(svc.resolveCluster(target.instance).GetOr(""), target.instance)],
        Failed(e))
  {
  }

  /** After a successful drain the handler's result is the final action's. */
  lemma SuccessfulDrainRunsFinalAction(event: CloudWatchEvent, svc: Services)
    requires Dispatch(event, svc).Success?
    requires svc.resolveCluster(Dispatch(event, svc).value.instance) != Failure(InstanceTerminated)
    requires svc.drain(svc.resolveCluster(Dispatch(event, svc).value.instance).GetOr(""), Dispatch(event, svc).value.instance) == Succeeded
    ensures HandleRequest(event, svc).outcome == RunFinalAction(Dispatch(event, svc).value.finalAction, svc).outcome
  {
  }

  /** Whenever the lifecycle hook is completed, it is the last step, it follows
      either a terminated-instance resolution or a drain that returned nil, it
      belongs to an Auto Scaling termination event, and it continues that
      event's instance under that event's hook, token and group. */
  lemma CompletionOnlyAfterDrainOrTermination(event: CloudWatchEvent, svc: Services, k: int)
    requires 0 <= k < |HandleRequest(event, svc).steps|
    requires HandleRequest(event, svc).steps[k].CompleteLifecycleAction?
    ensures var r := HandleRequest(event, svc);
      && k == |r.steps| - 1
      && r.steps[0].ResolveCluster?
      && ((k == 1 && svc.resolveCluster(r.steps[0].instance) == Failure(InstanceTerminated))
          || (k == 2 && r.steps[1].DrainInstance? && svc.drain(r.steps[1].cluster, r.steps[1].instance) == Succeeded))
    ensures event.detailType == AsgTerminateDetailType && svc.decodeAsgDetail(event.detail).Success?
    ensures var detail := svc.decodeAsgDetail(event.detail).value;
      HandleRequest(event, svc).steps[k].input == LifecycleActionInput(
        detail.ec2InstanceId, detail.lifecycleHookName, detail.lifecycleActionToken,
        detail.autoScalingGroupName, ContinueResult)
  {
    var r := HandleRequest(event, svc);
    var target := Dispatch(event, svc).value;
    assert target.finalAction.CompleteLifecycle?;
  }
}

=== FILE: scenarios.dfy ===
/** The dispatcher wired to the resolver and drain models, and end-to-end runs
    against scripted APIs: a drain with nothing to do, a drain that polls twice,
    a spot interruption for a terminated instance, and a lifecycle event whose
    drain fails. */
module Scenarios {
  import opened Wrappers
  import opened Errors
  import opened UserData
  import opened ClusterResolver
  import opened Ecs
  import opened DrainEngine
  import opened Handler
  import HandlerProperties

  /** The dispatcher's services built from the EC2 and ECS models; `fuel`
      bounds the number of polls. */
  function Wire(
    ec2: Ec2Api, ecs: EcsApi, fuel: nat,
    decodeAsgDetail: string -> Result<AsgLifecycleDetail, string>,
    decodeSpotDetail: string -> Result<SpotInterruptionDetail, string>,
    completeLifecycleAction: LifecycleActionInput -> Option<ApiError>): Services
  {
    Services(
      decodeAsgDetail, decodeSpotDetail,
      instance => GetClusterNameFromInstanceUserData(ec2, instance).result,
      (cluster, instance) => Drain(ecs, cluster, instance, fuel).outcome,
      completeLifecycleAction)
  }

  const Cluster := "prod"
  const Ec2Id := "i-0abc"
  const InstanceArn := "arn:aws:ecs:container-instance/1"

  function Instance(status: string, count: Option<int>): ContainerInstance {
    ContainerInstance(InstanceArn, Ec2Id, status, count)
  }

  /** An ECS API whose lookups answer with `first` before any state update and
      `later` afterwards, whose task list is `arns`, and whose task states are
      `running` at the first description and `stopped` afterwards. */
  function ScriptedEcs(first: ContainerInstance, later: ContainerInstance, arns: seq<string>, running: seq<Task>, stopped: seq<Task>): EcsApi {
    EcsApi(
      calls => Success([InstanceArn]),
      calls => if |calls| <= 2 then Success([first]) else Success([later]),
      calls => None,
      calls => Success(arns),
      calls => if |calls| <= 7 then Success(running) else Success(stopped))
  }

  /** A running-task count of zero drains nothing and mutates
      nothing. */
  lemma ZeroTasksDrainsNothing()
    ensures var api := ScriptedEcs(Instance("ACTIVE", Some(0)), Instance("ACTIVE", Some(0)), [], [], []);
      Drain(api, Cluster, Ec2Id, 3) == Run([ListContainerInstances(Cluster), DescribeContainerInstances(Cluster, [InstanceArn])], Succeeded)
  {
    var api := ScriptedEcs(Instance("ACTIVE", Some(0)), Instance("ACTIVE", Some(0)), [], [], []);
    var lookup := [ListContainerInstances(Cluster), DescribeContainerInstances(Cluster, [InstanceArn])];
    assert GetContainerInstance(api, Cluster, Ec2Id, []) == Fetched(Success(Instance("ACTIVE", Some(0))), lookup);
  }

  const Running := [Task("t1", Some("RUNNING")), Task("t2", Some("RUNNING"))]
  const AllStopped := [Task("t1", Some(Stopped)), Task("t2", Some(Stopped))]

  /** Two running tasks on an ACTIVE instance; the instance reads DRAINING after
      the update, and its tasks read STOPPED from the second poll on. */
  const TwoTasks := ScriptedEcs(Instance("ACTIVE", Some(2)), Instance(Draining, Some(2)), ["t1", "t2"], Running, AllStopped)

  const Lookup := [ListContainerInstances(Cluster), DescribeContainerInstances(Cluster, [InstanceArn])]
  const Relisted := Lookup + [UpdateContainerInstancesState(Cluster, [InstanceArn], Draining), ListTasks(Cluster, InstanceArn)] + Lookup
  const OnePoll := Relisted + [DescribeTasks(Cluster, ["t1", "t2"]), Sleep(PollSeconds)]

  lemma TwoTasksFirstLookup()
    ensures GetContainerInstance(TwoTasks, Cluster, Ec2Id, []) == Fetched(Success(Instance("ACTIVE", Some(2))), Lookup)
  {
  }

  lemma TwoTasksStart()
    ensures Drain(TwoTasks, Cluster, Ec2Id, 5) == Poll(TwoTasks, Cluster, Ec2Id, Drainer(Instance("ACTIVE", Some(2)), [], 2, Lookup), 5)
  {
    TwoTasksFirstLookup();
  }

  lemma TwoTasksRefresh()
    ensures StartDraining(TwoTasks, Cluster, Ec2Id, Drainer(Instance("ACTIVE", Some(2)), [], 2, Lookup))
      == Refreshed(Drainer(Instance(Draining, Some(2)), ["t1", "t2"], 2, Relisted))
  {
    var listed := Lookup + [UpdateContainerInstancesState(Cluster, [InstanceArn], Draining), ListTasks(Cluster, InstanceArn)];
    assert GetContainerInstance(TwoTasks, Cluster, Ec2Id, listed) == Fetched(Success(Instance(Draining, Some(2))), Relisted);
  }

  lemma TwoTasksFirstPoll()
    ensures Poll(TwoTasks, Cluster, Ec2Id, Drainer(Instance("ACTIVE", Some(2)), [], 2, Lookup), 5)
      == Poll(TwoTasks, Cluster, Ec2Id, Drainer(Instance(Draining, Some(2)), ["t1", "t2"], 2, OnePoll), 4)
  {
    TwoTasksRefresh();
    var described := Relisted + [DescribeTasks(Cluster, ["t1", "t2"])];
    assert |described| == 7;
    assert TwoTasks.describeTasks(described) == Success(Running);
    assert Unstopped(Running) == 2;
    assert described + [Sleep(PollSeconds)] == OnePoll;
  }

  lemma TwoTasksSecondPoll()
    ensures Poll(TwoTasks, Cluster, Ec2Id, Drainer(Instance(Draining, Some(2)), ["t1", "t2"], 2, OnePoll), 4)
      == Run(OnePoll + [DescribeTasks(Cluster, ["t1", "t2"]), Sleep(PollSeconds)], Succeeded)
  {
    assert Unstopped(AllStopped) == 0;
  }

  /** Two running tasks, a successful DRAINING update, two tasks
      listed, both RUNNING at the first poll and STOPPED at the second: exactly
      one update and two polls, then nil. */
  lemma TwoPollsThenDone()
    ensures Drain(TwoTasks, Cluster, Ec2Id, 5) == Run([
        ListContainerInstances(Cluster), DescribeContainerInstances(Cluster, [InstanceArn]),
        UpdateContainerInstancesState(Cluster, [InstanceArn], Draining),
        ListTasks(Cluster, InstanceArn),
        ListContainerInstances(Cluster), DescribeContainerInstances(Cluster, [InstanceArn]),
        DescribeTasks(Cluster, ["t1", "t2"]), Sleep(PollSeconds),
        DescribeTasks(Cluster, ["t1", "t2"]), Sleep(PollSeconds)], Succeeded)
  {
    TwoTasksStart();
    TwoTasksFirstPoll();
    TwoTasksSecondPoll();
    TwoPollTrace();
  }

  lemma TwoPollTrace()
    ensures OnePoll + [DescribeTasks(Cluster, ["t1", "t2"]), Sleep(PollSeconds)] == [
        ListContainerInstances(Cluster), DescribeContainerInstances(Cluster, [InstanceArn]),
        UpdateContainerInstancesState(Cluster, [InstanceArn], Draining),
        ListTasks(Cluster, InstanceArn),
        ListContainerInstances(Cluster), DescribeContainerInstances(Cluster, [InstanceArn]),
        DescribeTasks(Cluster, ["t1", "t2"]), Sleep(PollSeconds),
        DescribeTasks(Cluster, ["t1", "t2"]), Sleep(PollSeconds)]
  {
  }

  /** A spot interruption for an instance EC2 already reports as
      terminated runs the (empty) final action and returns nil without
      draining. */
  lemma SpotForTerminatedInstance(ecs: EcsApi, decodeAsgDetail: string -> Result<AsgLifecycleDetail, string>, complete: LifecycleActionInput -> Option<ApiError>)
    ensures var ec2 := Ec2Api(
        id => Success([Reservation([Ec2Instance(Terminated)])]),
        id => Success(None),
        text => Success(text));
      var svc := Wire(ec2, ecs, 10, decodeAsgDetail, detail => Success(SpotInterruptionDetail(Ec2Id, "terminate")), complete);
      HandleRequest(CloudWatchEvent(SpotInterruptionDetailType, "{}"), svc) == Handled([ResolveCluster(Ec2Id)], Succeeded)
  {
  }

  const Throttled := ApiError("ThrottlingException")

  /** An Auto Scaling termination detail for the scenarios' instance. */
  const Terminating := AsgLifecycleDetail("token", "asg", "hook", Ec2Id, "autoscaling:EC2_INSTANCE_TERMINATING")

  /** EC2 replies for a running instance whose user data decodes to `text`. */
  function LiveEc2(text: string): Ec2Api {
    Ec2Api(
      id => Success([Reservation([Ec2Instance("running")])]),
      id => Success(Some("encoded")),
      encoded => Success(text))
  }

  /** An ECS API that fails every instance listing. */
  const ThrottledEcs := EcsApi(
    calls => Failure(Throttled),
    calls => Success([]),
    calls => None,
    calls => Success([]),
    calls => Success([]))

  const ClusterConfigLine := "echo " + ClusterKey + Cluster + " >> /etc/ecs/ecs.config"

  /** The scenarios' shell line resolves to the cluster name. */
  lemma ConfigLineResolves()
    ensures GetClusterNameFromInstanceUserData(LiveEc2(ClusterConfigLine), Ec2Id).result == Success(Cluster)
  {
    assert forall k | 0 <= k < |Cluster| :: IsNameChar(Cluster[k]);
    assert !HasClusterKey("echo ") by {
      assert forall k | 0 <= k < |"echo "| :: "echo "[k] != ClusterKey[|ClusterKey| - 1];
      NoKeyWithoutKeyChar("echo ", |ClusterKey| - 1);
    }
    ParseInContext("echo ", Cluster, " >> /etc/ecs/ecs.config");
  }

  /** A failing instance listing ends the drain at its first call. */
  lemma ThrottledDrainFails(fuel: nat)
    ensures Drain(ThrottledEcs, Cluster, Ec2Id, fuel) == Run([ListContainerInstances(Cluster)], Failed(Api(Throttled)))
  {
  }

  /** A lifecycle event whose cluster resolves but whose drain hits
      an ECS API error returns that error and never completes the hook. */
  lemma LifecycleDrainFails(decodeSpotDetail: string -> Result<SpotInterruptionDetail, string>, complete: LifecycleActionInput -> Option<ApiError>)
    ensures var svc := Wire(LiveEc2(ClusterConfigLine), ThrottledEcs, 10, body => Success(Terminating), decodeSpotDetail, complete);
      HandleRequest(CloudWatchEvent(AsgTerminateDetailType, "{}"), svc)
        == Handled([ResolveCluster(Ec2Id), DrainInstance(Cluster, Ec2Id)], Failed(Api(Throttled)))
  {
    var svc := Wire(LiveEc2(ClusterConfigLine), ThrottledEcs, 10, body => Success(Terminating), decodeSpotDetail, complete);
    var event := CloudWatchEvent(AsgTerminateDetailType, "{}");
    ConfigLineResolves();
    ThrottledDrainFails(10);
    assert Dispatch(event, svc) == Success(Target(Ec2Id, CompleteLifecycle(Terminating)));
    assert svc.resolveCluster(Ec2Id) == Success(Cluster);
    HandlerProperties.DrainFailureBlocksFinalAction(event, svc, Api(Throttled));
  }

  /** Empty user data has no cluster key. */
  lemma EmptyUserDataIsMissingCluster()
    ensures GetClusterNameFromInstanceUserData(LiveEc2(""), Ec2Id).result == Failure(MissingECSClusterInUserData)
  {
  }

  /** A user-data text with no cluster key still drains, with the empty cluster
      name: the handler's `switch` has no default case. */
  lemma MissingClusterKeyStillDrains(ecs: EcsApi, decodeSpotDetail: string -> Result<SpotInterruptionDetail, string>, complete: LifecycleActionInput -> Option<ApiError>)
    ensures var svc := Wire(LiveEc2(""), ecs, 10, body => Success(Terminating), decodeSpotDetail, complete);
      var r := HandleRequest(CloudWatchEvent(AsgTerminateDetailType, "{}"), svc);
      |r.steps| >= 2 && r.steps[1] == DrainInstance("", Ec2Id)
  {
    var svc := Wire(LiveEc2(""), ecs, 10, body => Success(Terminating), decodeSpotDetail, complete);
    var event := CloudWatchEvent(AsgTerminateDetailType, "{}");
    EmptyUserDataIsMissingCluster();
    assert svc.resolveCluster(Ec2Id) == Failure(MissingECSClusterInUserData);
    assert Dispatch(event, svc) == Success(Target(Ec2Id, CompleteLifecycle(Terminating)));
    HandlerProperties.OtherResolutionsDrain(event, svc);
  }
}

=== FILE: user_data.dfy ===
/** Extraction of the ECS cluster name from decoded EC2 user data.

    The source matches the fixed pattern `ECS_CLUSTER=([0-9A-Za-z_\-]*)` and
    keeps the first submatch of the leftmost match. The pattern is a literal key
    followed by a greedy, possibly empty run of name characters, so it is
    modelled here as a direct scan rather than through a regular-expression
    engine: find the leftmost occurrence of the key, then take the longest run
    of name characters after it. */
module UserData {
  import opened Wrappers
  import opened Errors

  /** The literal that introduces the cluster name. It is not anchored: it also
      matches inside a longer key such as `X_ECS_CLUSTER=`. */
  const ClusterKey: string := "ECS_CLUSTER="

  /** The character class `[0-9A-Za-z_-]` of the pattern's capture group. */
  predicate IsNameChar(c: char) {
    ('0' <= c <= '9') || ('A' <= c <= 'Z') || ('a' <= c <= 'z') || c == '_' || c == '-'
  }

  /** The key occurs in `text` starting at index `i`. */
  predicate KeyAt(text: string, i: int) {
    0 <= i && i + |ClusterKey| <= |text| && text[i..i + |ClusterKey|] == ClusterKey
  }

  predicate HasClusterKey(text: string) {
    exists i | 0 <= i <= |text| :: KeyAt(text, i)
  }

  /** `i` is the leftmost occurrence of the key in `text`. */
  predicate FirstKeyAt(text: string, i: int) {
    KeyAt(text, i) && forall j | 0 <= j < i :: !KeyAt(text, j)
  }

  /** `name` is the longest run of name characters at the start of `rest`: what
      the greedy `*` captures. */
  predicate IsNameRun(rest: string, name: string) {
    && |name| <= |rest|
    && rest[..|name|] == name
    && (forall k | 0 <= k < |name| :: IsNameChar(name[k]))
    && (|name| == |rest| || !IsNameChar(rest[|name|]))
  }

  /** Index of the leftmost occurrence of the key at or after `from`. */
  function FindKey(text: string, from: nat): (r: Option<nat>)
    requires from <= |text|
    ensures r.Some? ==> from <= r.value && KeyAt(text, r.value)
    ensures r.Some? ==> forall j | from <= j < r.value :: !KeyAt(text, j)
    ensures r.None? ==> forall j | from <= j :: !KeyAt(text, j)
    decreases |text| - from
  {
    if from + |ClusterKey| > |text| then None
    else if text[from..from + |ClusterKey|] == ClusterKey then Some(from)
    else FindKey(text, from + 1)
  }

  /** The longest prefix of `rest` made of name characters. */
  function NameRun(rest: string): (name: string)
    ensures IsNameRun(rest, name)
  {
    if |rest| > 0 && IsNameChar(rest[0]) then [rest[0]] + NameRun(rest[1..]) else ""
  }

  /** The cluster-name extraction the package's tests call
      `parseECSClusterValue(text) -> (string, error)`: the error is
      `ErrMissingECSClusterInUserData` exactly when the key is absent, and
      otherwise the value is the (possibly empty) name run after the leftmost
      key. On the error path the Go value is "", which is `GetOr("")` here. */
  function ParseECSClusterValue(text: string): (r: Result<string, Error>)
    ensures r.Failure? <==> !HasClusterKey(text)
    ensures r.Failure? ==> r.error == MissingECSClusterInUserData
    ensures r.Success? ==> exists i :: FirstKeyAt(text, i) && IsNameRun(text[i + |ClusterKey|..], r.value)
  {
    match FindKey(text, 0)
    case None => Failure(MissingECSClusterInUserData)
    case Some(i) =>
      assert FirstKeyAt(text, i) && IsNameRun(text[i + |ClusterKey|..], NameRun(text[i + |ClusterKey|..]));
      Success(NameRun(text[i + |ClusterKey|..]))
  }

  /** At most one string is the longest name run of a text. */
  lemma NameRunUnique(rest: string, a: string, b: string)
    requires IsNameRun(rest, a) && IsNameRun(rest, b)
    ensures a == b
  {
  }

  /** Once the leftmost key is known, the extraction succeeds with `name` if and
      only if `name` is the longest name run right after that key. */
  lemma ParseCharacterization(text: string, i: int, name: string)
    requires FirstKeyAt(text, i)
    ensures ParseECSClusterValue(text) == Success(name) <==> IsNameRun(text[i + |ClusterKey|..], name)
  {
    var r := ParseECSClusterValue(text);
    assert r.Success?;
    var i' :| FirstKeyAt(text, i') && IsNameRun(text[i' + |ClusterKey|..], r.value);
    assert i' == i;
    if IsNameRun(text[i + |ClusterKey|..], name) {
      NameRunUnique(text[i + |ClusterKey|..], name, r.value);
    }
  }

  /** Every character of the key except the last one differs from its `=`. */
  lemma KeyHasOneEquals(m: int)
    requires 0 <= m < |ClusterKey| - 1
    ensures ClusterKey[m] != '='
  {
  }

  /** Whatever precedes the key (provided it holds no key of its own) and
      whatever follows the name (provided it does not continue the name, and
      including further `ECS_CLUSTER=` lines) does not change the result. */
  lemma ParseInContext(prefix: string, name: string, suffix: string)
    requires !HasClusterKey(prefix)
    requires forall k | 0 <= k < |name| :: IsNameChar(name[k])
    requires |suffix| == 0 || !IsNameChar(suffix[0])
    ensures ParseECSClusterValue(prefix + ClusterKey + name + suffix) == Success(name)
  {
    var text := prefix + ClusterKey + name + suffix;
    var i := |prefix|;
    assert text[i..i + |ClusterKey|] == ClusterKey;
    forall j | 0 <= j < i
      ensures !KeyAt(text, j)
    {
      if j + |ClusterKey| <= |prefix| {
        assert text[j..j + |ClusterKey|] == prefix[j..j + |ClusterKey|];
        assert !KeyAt(prefix, j);
      } else if j + |ClusterKey| <= |text| {
        var m := j + |ClusterKey| - 1 - i;
        KeyHasOneEquals(m);
        assert text[j + |ClusterKey| - 1] == ClusterKey[m];
        assert text[j..j + |ClusterKey|][|ClusterKey| - 1] == text[j + |ClusterKey| - 1];
      }
    }
    assert FirstKeyAt(text, i);
    var rest := text[i + |ClusterKey|..];
    assert rest == name + suffix;
    assert IsNameRun(rest, name);
    ParseCharacterization(text, i, name);
  }

  /** A text that lacks any one character of the key holds no key at all. */
  lemma NoKeyWithoutKeyChar(text: string, m: int)
    requires 0 <= m < |ClusterKey|
    requires forall k | 0 <= k < |text| :: text[k] != ClusterKey[m]
    ensures !HasClusterKey(text)
  {
    forall i | 0 <= i <= |text|
      ensures !KeyAt(text, i)
    {
      if i + |ClusterKey| <= |text| {
        assert text[i..i + |ClusterKey|][m] == text[i + m];
      }
    }
  }
}

=== FILE: user_data_examples.dfy ===
/** The cluster-name extraction applied to the user-data texts of the package's
    own test table (ecs_test.go), one lemma per row. Multi-line texts keep the
    tabs the Go raw strings carry; long texts are written as concatenations of
    short pieces so that facts about each piece can be proved separately. */
module UserDataExamples {
  import opened Wrappers
  import opened Errors
  import opened UserData

  /** `s` never contains `c`. */
  predicate Lacks(s: string, c: char) {
    forall k | 0 <= k < |s| :: s[k] != c
  }

  lemma LacksConcat(a: string, b: string, c: char)
    requires Lacks(a, c) && Lacks(b, c)
    ensures Lacks(a + b, c)
  {
  }

  /** A text before the key that has no `=` cannot hold a key of its own. */
  lemma NoEqualsNoKey(prefix: string)
    requires Lacks(prefix, '=')
    ensures !HasClusterKey(prefix)
  {
    NoKeyWithoutKeyChar(prefix, |ClusterKey| - 1);
  }

  const ShortName := "test-ecs-cluster123"
  const LongName := "my-super-ECS-cluster-22abc"
  const ConfigTail := " >> /etc/ecs/ecs.config"

  const YamlHead := "\n\t\t\twrite_files:\n" + "\t\t\t- path: /etc/ecs/ecs.config\n" + "\t\t\t  append: true\n" + "\t\t\t  content: |\n\t\t\t\t"
  const StopTimeoutSetting := "ECS_CONTAINER_STOP_TIMEOUT=2m\n"
  const YamlStopTimeout := "\t\t\t\t" + StopTimeoutSetting
  const ShellHead := "\npip install awscli\n" + "aws configure set default.region " + "${AWS::Region}\necho "

  lemma NamesAreNameRuns()
    ensures forall k | 0 <= k < |ShortName| :: IsNameChar(ShortName[k])
    ensures forall k | 0 <= k < |LongName| :: IsNameChar(LongName[k])
  {
  }

  /** Row 1: the assignment inside double quotes. */
  lemma DoubleQuoted()
    ensures ParseECSClusterValue("echo \"" + ClusterKey + ShortName + ("\"" + ConfigTail)) == Success(ShortName)
  {
    NamesAreNameRuns();
    NoEqualsNoKey("echo \"");
    ParseInContext("echo \"", ShortName, "\"" + ConfigTail);
  }

  /** Row 2: the assignment inside single quotes. */
  lemma SingleQuoted()
    ensures ParseECSClusterValue("echo '" + ClusterKey + ShortName + ("'" + ConfigTail)) == Success(ShortName)
  {
    NamesAreNameRuns();
    NoEqualsNoKey("echo '");
    ParseInContext("echo '", ShortName, "'" + ConfigTail);
  }

  /** Row 3: the bare assignment. */
  lemma Unquoted()
    ensures ParseECSClusterValue("echo " + ClusterKey + ShortName + ConfigTail) == Success(ShortName)
  {
    NamesAreNameRuns();
    NoEqualsNoKey("echo ");
    ParseInContext("echo ", ShortName, ConfigTail);
  }

  /** Row 4: a shell script with a shebang line. */
  lemma AfterShebang()
    ensures ParseECSClusterValue("#!/bin/bash -xe\n\t\t\techo " + ClusterKey + ShortName + ConfigTail) == Success(ShortName)
  {
    NamesAreNameRuns();
    NoEqualsNoKey("#!/bin/bash -xe\n\t\t\techo ");
    ParseInContext("#!/bin/bash -xe\n\t\t\techo ", ShortName, ConfigTail);
  }

  /** Row 5: a cloud-config YAML block, followed by another `ECS_` setting. */
  lemma InYamlBlock()
    ensures ParseECSClusterValue(YamlHead + ClusterKey + LongName + ("\n" + YamlStopTimeout)) == Success(LongName)
  {
    NamesAreNameRuns();
    LacksConcat("\n\t\t\twrite_files:\n", "\t\t\t- path: /etc/ecs/ecs.config\n", '=');
    LacksConcat("\n\t\t\twrite_files:\n" + "\t\t\t- path: /etc/ecs/ecs.config\n", "\t\t\t  append: true\n", '=');
    LacksConcat("\n\t\t\twrite_files:\n" + "\t\t\t- path: /etc/ecs/ecs.config\n" + "\t\t\t  append: true\n", "\t\t\t  content: |\n\t\t\t\t", '=');
    NoEqualsNoKey(YamlHead);
    ParseInContext(YamlHead, LongName, "\n" + YamlStopTimeout);
  }

  /** Row 6: the same YAML block with the stop-timeout setting in place of the
      cluster setting. */
  lemma YamlWithoutCluster()
    ensures ParseECSClusterValue(YamlHead + StopTimeoutSetting) == Failure(MissingECSClusterInUserData)
    ensures ParseECSClusterValue(YamlHead + StopTimeoutSetting).GetOr("") == ""
  {
    LacksConcat("\n\t\t\twrite_files:\n", "\t\t\t- path: /etc/ecs/ecs.config\n", 'L');
    LacksConcat("\n\t\t\twrite_files:\n" + "\t\t\t- path: /etc/ecs/ecs.config\n", "\t\t\t  append: true\n", 'L');
    LacksConcat("\n\t\t\twrite_files:\n" + "\t\t\t- path: /etc/ecs/ecs.config\n" + "\t\t\t  append: true\n", "\t\t\t  content: |\n\t\t\t\t", 'L');
    LacksConcat(YamlHead, StopTimeoutSetting, 'L');
    NoKeyWithoutKeyChar(YamlHead + StopTimeoutSetting, 5);
  }

  /** Row 7: empty user data. */
  lemma EmptyText()
    ensures ParseECSClusterValue("") == Failure(MissingECSClusterInUserData)
    ensures ParseECSClusterValue("").GetOr("") == ""
  {
  }

  /** Row 8: a shell script whose earlier lines hold `${...}` substitutions. */
  lemma AfterShellCommands()
    ensures ParseECSClusterValue(ShellHead + ClusterKey + LongName + (ConfigTail + "\n")) == Success(LongName)
  {
    NamesAreNameRuns();
    LacksConcat("\npip install awscli\n", "aws configure set default.region ", '=');
    LacksConcat("\npip install awscli\n" + "aws configure set default.region ", "${AWS::Region}\necho ", '=');
    NoEqualsNoKey(ShellHead);
    ParseInContext(ShellHead, LongName, ConfigTail + "\n");
  }

  /** Not in the table, but implied by the pattern: a longer key that ends in
      the literal also matches, and a key followed at once by a non-name
      character yields the empty name without an error. */
  lemma UnanchoredAndEmpty()
    ensures ParseECSClusterValue("X_" + ClusterKey + "abc") == Success("abc")
    ensures ParseECSClusterValue(ClusterKey + "\"x\"") == Success("")
  {
    NoEqualsNoKey("X_");
    ParseInContext("X_", "abc", "");
    assert "X_" + ClusterKey + "abc" + "" == "X_" + ClusterKey + "abc";
    NoEqualsNoKey("");
    ParseInContext("", "", "\"x\"");
    assert "" + ClusterKey + "" + "\"x\"" == ClusterKey + "\"x\"";
  }
}

=== FILE: wrappers.dfy ===
/** An optional value (a Go pointer that may be nil) and a value-or-error pair
    (a Go `(T, error)` return). */
module Wrappers {

  /** A value that may be absent (a nil pointer in the source). */
  datatype Option<+T> = None | Some(value: T) {

    /** The wrapped value, or `default` when absent. */
    function GetOr(default: T): T {
      match this
      case Some(v) => v
      case None => default
    }
  }

  /** Either a value or the error that prevented computing it. */
  datatype Result<+R, +E> = Success(value: R) | Failure(error: E) {

    /** The value on success and `default` on failure: a Go function that
        returns `("", err)` on every error path reads as `GetOr("")`. */
    function GetOr(default: R): R {
      match this
      case Success(v) => v
      case Failure(_) => default
    }
  }
}
